=== FILE: README.md ===
# Transit fleet management: a Dafny model of its decision logic

The system is a transit fleet-management web application. Administrators manage vehicles,
routes, drivers and users. Drivers run their assigned route and report positions. Passengers
follow routes live on a map and rate drivers.

This project models the parts of the code that decide something:

- **Real-time server** (`Realtime`). It keeps a registry of socket clients with claimed
  identities and channel subscriptions. Each frame passes through the two message-handler
  blocks in turn. The module also models the channel and broadcast fan-out, and connect,
  error and close handling.
- **Storage layer** (`Storage`):
  - the dynamic `UPDATE … SET col = $k` builders, with their running parameter counter;
  - the `||` defaults of the `create*` methods;
  - the result conventions of update and delete;
  - location inserts on a small in-memory table.
- **REST handlers** (`Api`). The source-selection precedence of the list endpoints, the
  authorization and status-code decisions, and password stripping.
- **Request logger and error handler** of the server entry point (`RequestLog`).
- **Onboarding tour**. The per-role `seen` record and show/complete/reset actions
  (`TourProgress`), and the tour card's step navigation, labels and placement (`TourCard`).
- **Client pages**:
  - the passenger's live-route page (`LiveRoutes`): subscriptions, the position merge, the
    route enrichment, search and the favourites/history narrowing;
  - the driver's route page (`MyRoute`): stop statuses and times, starting the route, and the
    position reports it sends;
  - the vehicle form (`VehicleForm`), the route editor (`RouteForm`) and the user
    administration page (`UserAdmin`);
  - the dashboard's role × path view dispatch (`Dashboard`).

`Common` holds the JavaScript value semantics the code relies on:

- truthiness of `0`, `""` and `NaN`;
- `||` defaults;
- `parseInt`, with `None` standing for `NaN`;
- `String(n)`, `trim`, `toLowerCase` on ASCII letters, and `includes`.

`Schema` holds the entity records.

The database, the sockets, the clock, geolocation, random mock data and number formatting
are abstract:

- a query's outcome is an input;
- a socket is an identifier;
- the clock and the coin tosses are parameters;
- `parseFloat` and the float-to-text conversion are function parameters.

Two behaviours of server/websocket.ts are easy to miss, and the model states them as the
code has them:

- **Unauthenticated reports are stored.** The first handler block stores and publishes a
  location report from a client that never authenticated, whenever its assignment id and
  coordinates are truthy (`Realtime.UnauthenticatedReportIsStored`).
- **No ownership check on the socket path.** A socket report from any client claiming the
  `driver` role is stored for any existing assignment (`Realtime.DriverReportStoredTwice`).
  The REST handler for the same report compares the assignment's driver with the caller
  (`Api.RestReportNeedsOwnership`).

Neither side of the application can run these paths as shipped:

- **The client socket hook is a stub.** Its `subscribe` and `sendLocationUpdate` do nothing
  and its `lastMessage` is always `null` (client/src/hooks/use-websocket.tsx). The
  client-side model therefore covers what the pages ask for and what they would do with a
  message. The hook has no reconnect logic, and the model adds none.
- **The socket server is not wired.** server/routes.ts:6 comments out the import of
  `setupWebSocketServer`, and `registerRoutes` only creates and returns a plain HTTP server
  (server/routes.ts:14 and 488). Nothing attaches the handlers of server/websocket.ts to it.
- **The storage module does not load.** server/storage.ts imports `eq` twice (lines 15 and
  18), and it binds `db` both by import (line 9) and as a `const` (line 25). Each of these
  duplicate bindings is an early error in an ES module. `pool`, used at line 25 and by every
  method, is declared nowhere in the server. server/routes.ts:3 and server/websocket.ts:3
  both import this module, so no server starts at all.

So the `Storage`, `Api` and `Realtime` modules model the server files as written, as if they
loaded and were attached. Each storage method is read as if `pool` were a connected
node-postgres pool whose queries answer with `{ rows, rowCount }`. The behaviours above are
latent in those files; they are not reachable in the shipped program.

## Model

| member | source | states |
|---|---|---|
| Realtime.Connect | server/websocket.ts:16-22 | a new socket joins the registry with no identity and no subscriptions, other clients and the database are untouched, and the only message sent is the welcome to that socket (line 142) |
| Realtime.NewClientHearsNoChannel | server/websocket.ts:18-22 | a fresh connection is in no channel's audience but is in the broadcast audience |
| Realtime.ChannelAudience | server/websocket.ts:146-154 | a channel publication reaches only registered clients |
| Realtime.BroadcastToChannel | server/websocket.ts:146-154 | the delivery is tagged with its channel and carries the envelope unchanged; its recipients are among the open clients |
| Realtime.ChannelAudienceIsSubscribers | server/websocket.ts:146-154 | a registered client hears a channel exactly when it is subscribed to it and its socket is open, so a channel nobody holds reaches nobody |
| Realtime.Broadcast | server/websocket.ts:157-165 | an administrative broadcast has no channel and reaches every client any channel publication could reach |
| Realtime.OnError | server/websocket.ts:33-36 | a socket error terminates that socket only; the registry keys, the other clients and the database are unchanged |
| Realtime.OnClose | server/websocket.ts:137-139 | closing removes exactly that client and leaves the rest as they were |
| Realtime.ClosedSocketHearsNothing | server/websocket.ts:33-36 | after an error or a close, neither a channel publication nor a broadcast reaches the socket (also lines 137-139) |
| Realtime.FirstBlock | server/websocket.ts:39-72 | the `switch` block never changes identities; subscribe adds and unsubscribe removes the channel, and no other frame touches the registry; a report is stored and published on `assignment_<id>` exactly when assignment id, latitude and longitude are all truthy and the insert succeeds; the stored status defaults to `on-time`; and the publication goes to the channel's subscribers |
| Realtime.SecondBlock | server/websocket.ts:73-133 | `auth` sets the claimed identity; subscribe and unsubscribe edit the channel set; only a `driver` role gets a report stored, at most one row; a stored row is published first on `assignment:<id>` and then, because `getAssignment` finds the assignment, on `route:<routeId>` with the route id attached; without a stored row nothing is sent except the error reply, which goes to the sender alone, exactly for an unparsable frame or a failed driver insert; every channel publication goes to that channel's audience |
| Realtime.HandleMessage | server/websocket.ts:39-134 | both blocks run in turn: other clients are untouched, assignments are unchanged, at most two rows are appended, and every channel delivery reaches exactly its audience |
| Realtime.SubscribeControlsAudience | server/websocket.ts:44-50 | subscribe adds and unsubscribe removes the channel (applied again at lines 84-93), putting the open client in or out of that channel's audience, and sends nothing |
| Realtime.SubscribeIdempotent | server/websocket.ts:44-50 | a second identical subscribe frame leaves the state as the first left it, although each frame subscribes twice (lines 84-87) |
| Realtime.AuthTrustsTheFrame | server/websocket.ts:77-81 | an `auth` frame sets whatever user id and role it claims, unverified, and sends nothing |
| Realtime.MalformedOnlyReplies | server/websocket.ts:70-72 | an unparsable frame is only logged by the first block; the second answers the sender with `Invalid message format` (lines 130-133); nothing else changes |
| Realtime.ChannelSpellingsDiffer | server/websocket.ts:63-113 | one driver report is published by the first block on `assignment_<id>` (line 63) and by the second on `assignment:<id>` (lines 109-113); the two channels differ, so an open client subscribed only to the colon spelling hears the second copy and not the first |
| Realtime.UnauthenticatedReportIsStored | server/websocket.ts:52-67 | a truthy report from a client that never authenticated is stored once and published on `assignment_<id>`, while the second block ignores it (line 96) |
| Realtime.DriverReportStoredTwice | server/websocket.ts:96-128 | a truthy driver report for an existing assignment is stored twice: first with status default `on-time`, then with the store's default `active`. Three publications follow, the second on `assignment:<id>` and the last on `route:<routeId>`, and no ownership is checked |
| Realtime.ZeroCoordinateSkipsFirstBlock | server/websocket.ts:53 | a latitude of exactly zero is falsy, so the first block drops the report while the second still stores it for a driver (lines 96-107) |
| Storage.Included | server/storage.ts:299-333 | the entries written are those whose guard passes and never exceed the candidates; none are written exactly when every guard fails |
| Storage.IncludedAppend | server/storage.ts:299-333 | the guard filter distributes over concatenation of field lists |
| Storage.IncludedKeepsOrder | server/storage.ts:299-333 | the written columns are an order-preserving subsequence of the builder's fixed field order |
| Storage.IncludedStep | server/storage.ts:299-333 | each builder step appends the next entry exactly when its guard passes |
| Storage.PlaceholdersDistinct | server/storage.ts:300-346 | distinct positions give distinct `$k` placeholders, so each placeholder names one value |
| Storage.BuildSetClauses | server/storage.ts:295-333 | the k-th clause is `column = $k` for the k-th included field, the k-th value is that field's value, and the counter ends one past the number of values |
| Storage.PlanUpdate | server/storage.ts:336-348 | with no qualifying field no UPDATE is issued and the current row is re-read. Otherwise the clauses follow the field order, and the id is pushed last and bound to the final placeholder `$paramCount` |
| Storage.UpdateResult | server/storage.ts:336-358 | nothing to set returns `getX(id)`; an update that returns no row, or fails, yields `undefined`; otherwise the first returned row |
| Storage.DeleteSucceeded | server/storage.ts:363-371 | a delete reports success exactly when the statement removed at least one row; a failed statement reports failure |
| Storage.UserCandidates | server/storage.ts:284-333 | the user builder's fields in order; the password entry, when written, holds the hash of a non-empty password; username, e-mail and role are each written only when non-empty, with their own text; full name and image whenever present |
| Storage.PlanUserUpdate | server/storage.ts:284-348 | the user update issues a query exactly when some field qualifies, binds the id last, and the value bound to `password` is always the hash (lines 287-292, 311-314) |
| Storage.PasswordEntryIsHashed | server/storage.ts:287-314 | any included entry named `password` carries the hash of the submitted non-empty password, never the plain text |
| Storage.IncludedMember | server/storage.ts:299-333 | every written entry is one of the builder's candidates |
| Storage.VehicleCandidates | server/storage.ts:427-474 | vehicle number and status are written only when non-empty, capacity and fuel whenever present, in the builder's field order |
| Storage.RouteCandidates | server/storage.ts:577-630 | route name is written only when non-empty, description whenever present, in the builder's field order |
| Storage.RouteStopCandidates | server/storage.ts:713-755 | stop location is written only when non-empty, order whenever present, in the builder's field order |
| Storage.AssignmentCandidates | server/storage.ts:867-909 | every assignment field is written whenever present, in the builder's field order |
| Storage.DriverRatingCandidates | server/storage.ts:1011-1047 | every rating field is written whenever present, in the builder's field order |
| Storage.EmptyTextSkippedOrWritten | server/storage.ts:584-599 | an empty route name is skipped by the truthiness guard while an empty description is written by the `!== undefined` guard |
| Storage.CreateUserRow | server/storage.ts:243-262 | the stored password is the hash; a falsy role becomes `user` and a truthy one is kept; username and e-mail are kept; an empty full name or image is stored as NULL and a non-empty one as given |
| Storage.CreateVehicleRow | server/storage.ts:384-405 | a falsy status becomes `inactive` and a truthy one is kept; a falsy fuel level becomes 0; each maintenance date is NULL when empty and kept otherwise; number, type and capacity are kept |
| Storage.CreateRouteRow | server/storage.ts:525-550 | a falsy status becomes `active` and a truthy one is kept; missing waypoints become the empty list and given ones are kept; the description and creator are NULL when falsy and kept otherwise; name and frequency are kept |
| Storage.CreateRouteStopRow | server/storage.ts:681-701 | arrival and departure times are NULL when empty and kept otherwise; name, location, route and order are kept |
| Storage.CreateAssignmentRow | server/storage.ts:805-825 | a falsy status becomes `pending` and a truthy one is kept; the end time is NULL when empty and kept otherwise; the driver, route, vehicle and start time are kept |
| Storage.CreateDriverRatingRow | server/storage.ts:959-978 | the comment and the assignment id are NULL when falsy and kept otherwise; the driver, the author and the rating are kept |
| Storage.ReinsertUser | server/storage.ts:243-262 | inserting a stored user's own fields again gives the same row except that the password is hashed once more: the role default and the NULL optionals are already applied |
| Storage.ReinsertVehicle | server/storage.ts:384-405 | inserting a stored vehicle's own fields again gives the same row: the status and fuel defaults and the NULL dates are stable |
| Storage.ReinsertRoute | server/storage.ts:525-550 | inserting a stored route's own fields again gives the same row: the status and waypoint defaults and the NULL description and creator are stable |
| Storage.ReinsertRouteStop | server/storage.ts:681-701 | inserting a stored stop's own fields again gives the same row |
| Storage.ReinsertAssignment | server/storage.ts:805-825 | inserting a stored assignment's own fields again gives the same row: the `pending` default and the NULL end time are stable |
| Storage.ReinsertDriverRating | server/storage.ts:959-978 | inserting a stored rating's own fields again gives the same row: the NULL comment and assignment id are stable |
| Storage.GetAssignment | server/storage.ts:795-803 | an assignment is found exactly when the id names a stored row |
| Storage.CreateLocationUpdate | server/storage.ts:1097-1117 | the insert fails unless the assignment exists and both coordinates are present. Otherwise exactly one row is appended: a falsy status becomes `active` and a truthy one is kept; a zero or missing speed or heading is stored as NULL and a truthy one is kept |
| Api.QueryId | server/routes.ts:247-249 | an empty or absent query parameter gives no id; otherwise the id is `parseInt` of its text |
| Api.AssignmentsSource | server/routes.ts:245-268 | the first truthy id of driver, vehicle, route wins. Without one, an admin gets the active assignments, a driver their own, and anyone else the active ones |
| Api.FalsyQueryIdFallsThrough | server/routes.ts:247-259 | any query id whose text `parseInt` reads as `0` or `NaN` is falsy and selects nothing: the assignment list and the ratings list both fall through to the next rule, as if the parameter were absent |
| Api.FalsyQueryTexts | server/routes.ts:247-249 | every signed run of zeros (`0`, `00`, `-0`, `+000`) reads as `0`, and every text that starts with neither whitespace, a sign nor a digit reads as `NaN` |
| Api.PutAssignment | server/routes.ts:289-314 | an invalid body is 400, an unknown assignment 404, and a missing session an error (500). A caller who is neither admin nor the assigned driver gets 403; the update runs exactly otherwise |
| Api.OnlyOwnerOrAdminUpdates | server/routes.ts:300-304 | a non-admin who gets through is the assignment's driver, and a plain user always gets 403 |
| Api.PostLocationUpdate | server/routes.ts:411-433 | 400 for an invalid body; then 404 for an unknown assignment, checked before ownership; then 403 when the assignment's driver is not the caller; otherwise 201 with exactly the appended row. Every answer but 201 leaves the store unchanged |
| Api.RestReportNeedsOwnership | server/routes.ts:421-423 | a valid report for an assignment the caller does not own is refused with 403 and stores nothing |
| Api.DriverRatingsSource | server/routes.ts:332-352 | a truthy `driverId` query selects that driver's ratings; otherwise a user gets exactly the ratings by their own id, a driver exactly the ratings for their own id, and anyone else is refused |
| Api.RatingsSourceAgreesWithRoles | server/routes.ts:333-346 | a truthy query overrides every role and the absence of a session; without one, a driver's ratings are their own, like their assignment list (lines 253-266), and a user's are those they wrote, never a driver's |
| Api.AdminNeedsDriverQuery | server/routes.ts:338-346 | an admin without a `driverId` query is refused, since the rule has no admin case |
| Api.AverageRatingReply | server/routes.ts:354-367 | no average is 404; otherwise 200 with the parsed driver id and the average |
| Api.StripPasswords | server/routes.ts:468-473 | the list keeps length and order, and giving each entry its password back recovers the stored user |
| Api.StripPasswordsIgnoresPasswords | server/routes.ts:468-473 | lists of users differing only in passwords produce the same response |
| Api.UsersSource | server/routes.ts:457-465 | an empty role filter lists every user; a non-empty one filters by that role |
| Api.DeleteReply | server/routes.ts:316-329 | storage `true` is 204 and `false` is 404 with the handler's message |
| Api.DeleteStatusFollowsRowCount | server/routes.ts:320-326 | a delete answers 204 exactly when a row was removed, and otherwise 404, never 500, since storage catches failures (server/storage.ts:363-371) |
| Api.CreateReply | server/routes.ts:51-62 | a schema failure is 400, another error 500, and success 201 with the created row |
| RequestLog.Truncate | server/index.ts:34-36 | a line over 80 characters becomes its first 79 plus `…`, exactly 80; shorter lines are unchanged |
| RequestLog.TruncateIdempotent | server/index.ts:34-36 | truncating an already truncated line changes nothing |
| RequestLog.LogLine | server/index.ts:26-40 | only `/api` paths are logged; the line starts with method and path, ends with ` :: <json>` when a body was captured and the line was not cut, and never exceeds 80 characters |
| RequestLog.ShortLineKept | server/index.ts:28-36 | a short request without a body is logged in full as `METHOD path status in Nms` |
| RequestLog.ErrorStatus | server/index.ts:63 | the status is `err.status`, else `err.statusCode`, else 500, skipping falsy values, and is never 0 |
| RequestLog.HandleError | server/index.ts:56-69 | nothing is sent once headers are out; otherwise the body carries the fallback status, the request path and a non-empty message |
| RequestLog.ZeroStatusFallsBack | server/index.ts:63 | a status of 0 is treated as absent |
| TourProgress.InitialProvider | client/src/hooks/use-tour.tsx:25-32 | no tour is seen and none shows initially |
| TourProgress.TourTypeOf | client/src/hooks/use-tour.tsx:35-41 | the tour type is the role's own key exactly for the three known roles |
| TourProgress.ShowEffect | client/src/hooks/use-tour.tsx:57-64 | the tour shows exactly when a user with a known role has not seen that role's tour; the record is untouched |
| TourProgress.MarkTourAsCompleted | client/src/hooks/use-tour.tsx:71-82 | the role's tour becomes seen and hidden, every other key keeps its flag, and with no tour type nothing changes |
| TourProgress.ResetTour | client/src/hooks/use-tour.tsx:84-95 | the role's tour becomes unseen and shown, every other key keeps its flag, and with no tour type nothing changes |
| TourProgress.MarkCompletedIdempotent | client/src/hooks/use-tour.tsx:71-82 | completing twice is completing once |
| TourProgress.ActionsAgreeWithEffect | client/src/hooks/use-tour.tsx:57-95 | after complete or reset, re-running the show effect keeps the visibility the action set |
| TourProgress.ResetThenComplete | client/src/hooks/use-tour.tsx:71-95 | completing after a reset restores the completed state |
| TourProgress.FirstSignInShowsTour | client/src/hooks/use-tour.tsx:26-64 | a first sign-in with a known role shows that role's tour |
| TourCard.HandleNext | client/src/components/ui/tour.tsx:98-110 | on the last step Next completes without moving; elsewhere it moves forward exactly one |
| TourCard.HandlePrevious | client/src/components/ui/tour.tsx:112-122 | Previous moves back one step except on the first, and never completes |
| TourCard.HandleSkip | client/src/components/ui/tour.tsx:124-132 | Skip completes from wherever it is, without moving |
| TourCard.RunStaysInRange | client/src/components/ui/tour.tsx:98-132 | from a valid step, no sequence of clicks leaves the range of step indices |
| TourCard.ReachableStepsValid | client/src/components/ui/tour.tsx:22 | starting at step 0, every reachable step index is valid |
| TourCard.NextThenPrevious | client/src/components/ui/tour.tsx:98-122 | Next then Previous returns to the same step, except from the last |
| TourCard.PrimaryLabel | client/src/components/ui/tour.tsx:259-261 | the button reads `Finish` exactly where Next completes, and `Next` otherwise |
| TourCard.ShowsPrevious | client/src/components/ui/tour.tsx:254-258 | the back button shows exactly when Previous would move |
| TourCard.Counter | client/src/components/ui/tour.tsx:246 | the counter begins with the one-based step number and ends with the step count |
| TourCard.LastStepCounter | client/src/components/ui/tour.tsx:246 | on the last step the counter reads `<n> of <n>` and its leading number parses back to n |
| TourCard.CardPlacementAsWritten | client/src/components/ui/tour.tsx:47-53 | the placement is always the step's own, or `bottom` when absent |
| TourCard.AutomaticPlacement | client/src/components/ui/tour.tsx:55-66 | a target in the left third gets `right`, one in the right third gets `left`, and otherwise `top` in the lower half, `bottom` in the upper |
| TourCard.CardPlacement | client/src/components/ui/tour.tsx:47-66 | a step's own placement overrides; a step without one gets the automatic placement |
| TourCard.PlacementDiscrepancy | client/src/components/ui/tour.tsx:47-66 | the two agree for a step that names its placement; a step without one, on a left-edge target, gets `bottom` as written but `right` as intended |
| LiveRoutes.RouteChannels | client/src/components/user/live-routes.tsx:59-64 | one `route:<id>` channel per fetched route, in order, and none while routes load |
| LiveRoutes.ViewerHearsRouteBroadcast | client/src/components/user/live-routes.tsx:59-64 | a viewer holding the page's channels is among the recipients of the server's route publication for a driver's report (server/websocket.ts:116-128) |
| LiveRoutes.MergeLocation | client/src/components/user/live-routes.tsx:79-87 | a location message overwrites the entry for its assignment and leaves every other entry; any other message changes nothing |
| LiveRoutes.MergeAllKeepsLatest | client/src/components/user/live-routes.tsx:79-87 | after any run of messages each assignment shows the last row pushed for it, and an assignment never pushed keeps its entry |
| LiveRoutes.MergeIdempotent | client/src/components/user/live-routes.tsx:79-87 | receiving the same message twice equals receiving it once |
| LiveRoutes.RouteAssignments | client/src/components/user/live-routes.tsx:92-94 | a route's assignments are, in order, exactly those with its route id and status `in-progress`; none while loading |
| LiveRoutes.Marker | client/src/components/user/live-routes.tsx:97-107 | a non-zero pushed coordinate is shown, otherwise the fallback, with the assignment's vehicle and id |
| LiveRoutes.Enhance | client/src/components/user/live-routes.tsx:90-117 | the active-vehicle count equals the number of in-progress assignments and of markers; a zero frequency becomes 15 (line 113) |
| LiveRoutes.EnhancedRoutes | client/src/components/user/live-routes.tsx:90-117 | one enriched entry per fetched route, in order; none while routes load |
| LiveRoutes.PushedPositionMovesMarker | client/src/components/user/live-routes.tsx:79-107 | a pushed non-zero position moves the marker of its assignment to that position |
| LiveRoutes.FilteredRoutes | client/src/components/user/live-routes.tsx:120-123 | the routes kept are, in order, exactly those whose lower-cased name or non-empty description contains the lower-cased query |
| LiveRoutes.EmptySearchKeepsAll | client/src/components/user/live-routes.tsx:120-123 | an empty query keeps every route |
| LiveRoutes.SearchIgnoresQueryCase | client/src/components/user/live-routes.tsx:120-123 | the letter case of the query does not change the result |
| LiveRoutes.DisplayedRoutes | client/src/components/user/live-routes.tsx:127-131 | favourites keep positions 0, 2, 4, …, history keeps 0, 3, 6, …, otherwise all, always in order and with the exact count |
| LiveRoutes.NarrowedViewsKeepFirst | client/src/components/user/live-routes.tsx:127-131 | every view of a non-empty list keeps its first route |
| MyRoute.InitialTab | client/src/components/driver/my-route.tsx:48 | the schedule flag wins over ratings, and the route tab is the default |
| MyRoute.ActiveAssignment | client/src/components/driver/my-route.tsx:55-58 | the first in-progress assignment of the list, and none exactly when there is none |
| MyRoute.RouteQueriesEnabled | client/src/components/driver/my-route.tsx:61-70 | route and stop queries run only for an assignment with a non-zero route id |
| MyRoute.RatingsQueryEnabled | client/src/components/driver/my-route.tsx:73-76 | the ratings query runs only for a signed-in non-zero id on the ratings view |
| MyRoute.EnhanceStop | client/src/components/driver/my-route.tsx:122-155 | stop i is due at 09:00 plus 15·i minutes. Before the start every stop is upcoming; after it, stops 0–1 are completed (on time or 2 min late), stop 2 is current with an eta 3 minutes from now, and the rest are upcoming |
| MyRoute.EnhancedStops | client/src/components/driver/my-route.tsx:122-155 | one entry per stop in the same order; none while stops load |
| MyRoute.StopsInOrder | client/src/components/driver/my-route.tsx:132-146 | completed stops precede the current one, which precedes the upcoming; there are never two current stops; consecutive stops are 15 minutes apart |
| MyRoute.ThirdStopIsCurrent | client/src/components/driver/my-route.tsx:136-145 | once started with at least three stops, exactly the third is current |
| MyRoute.ClockText | client/src/components/driver/my-route.tsx:151 | the `h:mm a` text ends in `AM` before noon and `PM` after |
| MyRoute.ClockRoundTrip | client/src/components/driver/my-route.tsx:151 | reading the `h:mm a` text back (hour 1 to 12, two minute digits, the marker) gives the time of day it was written for, so two times on the same day never share a text |
| MyRoute.ScheduleExamples | client/src/components/driver/my-route.tsx:124-129 | the first stop reads `9:00 AM`, the fifth `10:00 AM`, the thirteenth `12:00 PM` |
| MyRoute.StartButtonShown | client/src/components/driver/my-route.tsx:163 | the Start Route button shows exactly while the route has not started |
| MyRoute.StartRoute | client/src/components/driver/my-route.tsx:79-80 | starting marks the route started and keeps the last position |
| MyRoute.StartRouteHidesButton | client/src/components/driver/my-route.tsx:79-80 | starting hides the button, and starting twice equals starting once (line 163) |
| MyRoute.OnPosition | client/src/components/driver/my-route.tsx:85-99 | the position is recorded and the started flag is untouched; a report goes out exactly when there is an assignment, with its id, the coordinates, status `on-time`, and a zero speed or heading left out |
| MyRoute.PageReportStoredTwice | client/src/components/driver/my-route.tsx:90-98 | the page's report, if delivered from a driver socket, would be stored twice, the first copy keeping `on-time` (server/websocket.ts:52-128) |
| VehicleForm.EmptyForm | client/src/components/admin/vehicle-management.tsx:130-137 | reset clears the texts and restores status `active` |
| VehicleForm.ValidateForm | client/src/components/admin/vehicle-management.tsx:60-70 | the first failing check decides: a blank number, then a blank type, then an empty or non-positive numeric capacity; all pass exactly otherwise |
| VehicleForm.Submit | client/src/components/admin/vehicle-management.tsx:72-100 | a failing check stops with its message. Otherwise the texts and status go out as typed, with capacity as `parseInt`, never a non-positive number: PUT to the edited vehicle, else POST |
| VehicleForm.FormOf | client/src/components/admin/vehicle-management.tsx:36-45 | an edit loads the vehicle's fields, with a capacity text that parses back to the capacity |
| VehicleForm.UntouchedEditRoundTrip | client/src/components/admin/vehicle-management.tsx:36-85 | saving an untouched edit of a valid vehicle sends its own fields back to its own address |
| VehicleForm.NonPositiveCapacityRejected | client/src/components/admin/vehicle-management.tsx:67-69 | an untouched edit of a vehicle with a non-positive capacity fails on capacity |
| VehicleForm.EmptyFormRejected | client/src/components/admin/vehicle-management.tsx:61-63 | a cleared form fails on the vehicle number first |
| VehicleForm.TextCapacityAccepted | client/src/components/admin/vehicle-management.tsx:67-80 | a capacity starting with a letter reads as `NaN`, passes validation and is sent with no number |
| RouteForm.ResetForm | client/src/components/admin/route-creator.tsx:106-116 | reset empties the texts and points, sets frequency `15`, stops drawing and closes the dialog |
| RouteForm.MapClick | client/src/components/admin/route-creator.tsx:101-104 | while drawing, a click appends its point at the end; otherwise nothing changes; no other field ever changes |
| RouteForm.ClicksWhileDrawing | client/src/components/admin/route-creator.tsx:101-104 | clicks made while drawing append their points in order and change nothing else |
| RouteForm.ClicksWhileNotDrawing | client/src/components/admin/route-creator.tsx:101-104 | clicks made while not drawing change nothing |
| RouteForm.Waypoints | client/src/components/admin/route-creator.tsx:155 | one `lat,lng` text per point, in order |
| RouteForm.Submit | client/src/components/admin/route-creator.tsx:118-172 | refusals come in order: no points, no vehicle, a missing field, then a single point, each exactly in its case. Otherwise the payload carries the fields, the waypoint texts, status `active` and parsed numbers, to update when editing and to create otherwise |
| RouteForm.SplitComma | client/src/components/admin/route-creator.tsx:64 | `split(',')` always yields at least one piece |
| RouteForm.SplitCommaFree | client/src/components/admin/route-creator.tsx:64 | splitting comma-free text gives the text back |
| RouteForm.SplitCommaJoin | client/src/components/admin/route-creator.tsx:64 | splitting `a,b` with comma-free `a` gives `a` followed by the pieces of `b` |
| RouteForm.LoadForEdit | client/src/components/admin/route-creator.tsx:55-67 | an edit opens the dialog with the route's fields, an empty description default and a frequency text that parses back. Stored waypoints are read back point by point, and the vehicle choice is cleared because a stored route has no vehicle |
| RouteForm.WaypointTextRoundTrip | client/src/components/admin/route-creator.tsx:64 | a stored waypoint reads back as the point written at line 155, given comma-free number text that reads back as its number |
| RouteForm.WaypointRoundTrip | client/src/components/admin/route-creator.tsx:55-67 | the waypoints the form writes load back as the same points, given that each coordinate's text holds no comma and reads back as that coordinate |
| RouteForm.EditNeedsVehicleAgain | client/src/components/admin/route-creator.tsx:66 | saving an edit loaded from a stored route with points is refused for lack of a vehicle (line 124) |
| RouteForm.ResetFormRefused | client/src/components/admin/route-creator.tsx:106-122 | a cleared form is refused for lack of points |
| UserAdmin.FilteredUsers | client/src/components/admin/user-management.tsx:140-144 | the users kept are, in order, exactly those whose username, e-mail or non-empty full name contains the query, ignoring case; nothing while loading |
| UserAdmin.EmptySearchKeepsAll | client/src/components/admin/user-management.tsx:140-144 | an empty query keeps every user |
| UserAdmin.UsernameHitIsListed | client/src/components/admin/user-management.tsx:141 | a user whose username contains the query, in any case, is listed |
| UserAdmin.SchemaErrors | client/src/components/admin/user-management.tsx:47-52 | a username under 3 characters, a malformed e-mail and a present password under 6 characters are each reported exactly in their case; no error exactly when all hold |
| UserAdmin.Submit | client/src/components/admin/user-management.tsx:126-132 | invalid values stop; valid values register a user exactly when nothing is edited, with the form's fields and role forced to `user` (lines 77-86); an edit sends nothing |
| UserAdmin.DefaultValues | client/src/components/admin/user-management.tsx:66-74 | the defaults are empty texts, including an empty password |
| UserAdmin.LoadForEdit | client/src/components/admin/user-management.tsx:264-272 | an edit loads username and e-mail, a blank password and the full name defaulted to empty |
| UserAdmin.CreatedAccountsArePlainUsers | client/src/components/admin/user-management.tsx:76-86 | every account created here has the `user` role, and an edit never registers (lines 126-132) |
| UserAdmin.BlankPasswordBlocksSubmit | client/src/components/admin/user-management.tsx:50 | the blank password of the defaults and of an edit load fails the schema, so neither submits untouched |
| UserAdmin.Act | client/src/components/admin/user-management.tsx:264-273 | the edit button remembers the user and loads the form without sending; a submit keeps the editing state and sends what the submit rule decides (lines 126-132) |
| UserAdmin.NoCreateAfterEdit | client/src/components/admin/user-management.tsx:59 | once the edit button is used, no later action registers a user, because the editing id is never cleared (lines 126-132, 265) |
| Dashboard.Dispatch | client/src/pages/dashboard-page.tsx:31-71 | paths are matched ignoring letter case and one trailing `/`, as wouter's `useRoute` does (lines 20-29). At the root, admin, then user, then driver picks the home view. Elsewhere only the first set flag's paths count; an unhandled path keeps the panel |
| Dashboard.PathCaseAndSlashIgnored | client/src/pages/dashboard-page.tsx:20-29 | adding one trailing `/` to a path, or lower-casing it, opens the same view |
| Dashboard.AdminRoutesPathVariants | client/src/pages/dashboard-page.tsx:20-29 | for an admin, `/Routes` and `/routes/` open the route management, as `/routes` does |
| Dashboard.RolePathsOpenTheirViews | client/src/pages/dashboard-page.tsx:44-70 | each role's three paths open that role's views, whatever was shown |
| Dashboard.ForeignPathKeepsView | client/src/pages/dashboard-page.tsx:44-71 | a single-role user on a path outside its own list keeps the panel as it was |
| Dashboard.ViewsConfigureTheirPages | client/src/pages/dashboard-page.tsx:57-69 | `/favorites` and `/history` narrow the route list to every second and every third route; `/schedule` and `/my-ratings` open the driver page on those tabs |

## Left out

- Socket transport, JSON parsing and the `ws` library: frames arrive decoded, and a frame that does not parse, or parses to `null`, is one `Malformed` value. A frame whose `channel` is not a string is not distinguished.
- The heartbeat (`isAlive`, `ping`, `pong`) is left out: nothing in the code reads it.
- Asynchronous interleaving: the `await` points inside a message handler are treated as atomic, so concurrent frames on different sockets are not interleaved.
- The client socket hook and client reconnection: the hook is a no-op stub, and reconnection does not exist in the code.
- Database drivers, the pool, SQL execution and the session store: query outcomes are inputs. The module-loading defects of server/storage.ts (the duplicate `eq` and `db` bindings and the undeclared `pool`) are not modelled; each method is read as if it ran on a node-postgres pool. Only location inserts run on a small table, to connect the socket path to the rows it stores.
- Password hashing is an uninterpreted function parameter.
- The `checkRole` middleware and the `use-auth` hook (server/auth.ts, client/src/hooks/use-auth.tsx) are not part of this model. Handlers behind `checkRole` are modelled as reached, and the dashboard's role flags are an input.
- Floating point: coordinates are reals. `parseFloat`, the number-to-text conversion of waypoints and the average-rating arithmetic are parameters or outside the model.
- Random mock data (live-route status and occupancy, fallback marker positions, late stops) and the clock are parameters. `date-fns` formatting is modelled only for times of the current day.
- `localStorage` persistence of the tour record, and DOM work: highlighting, pixel styles, scrolling, resizing.
- HTTP requests, toasts, alerts and confirmation dialogs: they become the request or refusal values the functions return.
- Lengths are counted in characters, not UTF-16 code units. Lower-casing covers ASCII letters only. The e-mail check is a parameter.
- The driver page's header labels a vehicle `Bus #<vehicleId + 100>` (client/src/components/driver/my-route.tsx:161), while the live-route page uses `101 + vehicleId`. Only the live-route label is modelled.
- Rendering-only components and broken glue code (sidebar, header, pages other than the dashboard, driver and route management, driver rating, vehicle info, the onboarding tour texts) are not part of this model.
- Api.AssignmentsSource, Api.DriverRatingsSource, Api.UsersSource: these choose which storage query runs; the queries' results are not modelled.
- Storage.VehicleCandidates, Storage.RouteCandidates, Storage.RouteStopCandidates, Storage.AssignmentCandidates, Storage.DriverRatingCandidates: their contracts pin the column order and the guards of representative fields, not of every field; the bodies list every field.
- TourCard.Counter: states the leading and trailing numbers, not the ` of ` text between them except on the last step.

## Findings

| source | as written | input that shows it | evidently intended | confidence | as-written member | corrected member |
|---|---|---|---|---|---|---|
| client/src/components/ui/tour.tsx:47-66 | `pos` is the step's placement defaulted to `"bottom"`, so the `if (pos)` override always returns and the automatic placement below it never runs | a step with no `position` whose target sits at the left edge (`rect.left = 0`, window 1200×800) gets `bottom` | a step without its own placement gets the automatic placement (`right` here), as the "Override if specified in step" and "Automatic positioning logic" comments say | not executed | TourCard.CardPlacementAsWritten (shown by TourCard.PlacementDiscrepancy) | TourCard.CardPlacement |

=== FILE: api.dfy ===
/** The REST handlers of server/routes.ts that make decisions: where a list comes from,
    who may change an assignment or report a position, and how storage outcomes map to
    status codes. `req.user` is the session's user, `None` when nobody is logged in. The
    `checkRole` middleware lives in server/auth.ts, which is not part of this model; the
    handlers behind it are modelled as reached. */
module Api {
  import opened Common
  import opened Schema
  import opened Storage

  datatype Session = Session(id: int, role: string)

  /** A handler's answer: a JSON body with a status, a `{message}` body with a status, or
      an empty 204. */
  datatype Reply<T> = Json(status: int, body: T) | Message(status: int, message: string) | NoContent

  function StatusOf<T>(r: Reply<T>): int {
    match r
    case Json(st, _) => st
    case Message(st, _) => st
    case NoContent => 204
  }

  /** `req.query.x ? parseInt(req.query.x) : undefined` */
  function QueryId(q: Option<string>): (r: Option<int>)
    ensures !TruthyText(q) ==> r.None?
    ensures TruthyText(q) ==> r == ParseInt(q.value)
  {
    if TruthyText(q) then ParseInt(q.value) else None
  }

  // ---------------------------------------------------------------------------
  // GET /api/assignments

  datatype AssignmentSource = ByDriver(driverId: int) | ByVehicle(vehicleId: int) | ByRoute(routeId: int) | ActiveOnly

  /** The first truthy query id wins (driver, then vehicle, then route); without one, a
      driver sees their own assignments and everybody else the active ones. */
  function AssignmentsSource(driverQ: Option<string>, vehicleQ: Option<string>, routeQ: Option<string>,
                             user: Option<Session>): (r: AssignmentSource)
    ensures TruthyInt(QueryId(driverQ)) ==> r == ByDriver(QueryId(driverQ).value)
    ensures r.ByVehicle? <==> !TruthyInt(QueryId(driverQ)) && TruthyInt(QueryId(vehicleQ))
    ensures r.ByVehicle? ==> r.vehicleId == QueryId(vehicleQ).value
    ensures r.ByRoute? <==> !TruthyInt(QueryId(driverQ)) && !TruthyInt(QueryId(vehicleQ)) && TruthyInt(QueryId(routeQ))
    ensures r.ByRoute? ==> r.routeId == QueryId(routeQ).value
    ensures r.ByDriver? && !TruthyInt(QueryId(driverQ)) ==>
      user.Some? && user.value.role == DRIVER && r.driverId == user.value.id
    ensures r.ActiveOnly? ==> user.None? || user.value.role != DRIVER
  {
    var driverId := QueryId(driverQ);
    var vehicleId := QueryId(vehicleQ);
    var routeId := QueryId(routeQ);
    if TruthyInt(driverId) then ByDriver(driverId.value)
    else if TruthyInt(vehicleId) then ByVehicle(vehicleId.value)
    else if TruthyInt(routeId) then ByRoute(routeId.value)
    else if user.Some? && user.value.role == ADMIN then ActiveOnly
    else if user.Some? && user.value.role == DRIVER then ByDriver(user.value.id)
    else ActiveOnly
  }

  /** A query id whose text reads as `0` or as `NaN` is falsy and does not select a
      source: the next rule decides, in the assignment list and in the ratings list. */
  lemma FalsyQueryIdFallsThrough(q: string, vehicleQ: Option<string>, routeQ: Option<string>, user: Option<Session>)
    requires ParseInt(q).None? || ParseInt(q) == Some(0)
    ensures AssignmentsSource(Some(q), vehicleQ, routeQ, user) == AssignmentsSource(None, vehicleQ, routeQ, user)
    ensures DriverRatingsSource(Some(q), user) == DriverRatingsSource(None, user)
  {
  }

  /** The texts that read as `0` or `NaN` include every signed run of zeros (`0`, `00`,
      `-0`, `+000`) and every text that starts with something other than whitespace, a
      sign or a digit (`abc`, `x1`, `.5`). */
  lemma FalsyQueryTexts(zeros: string, sign: string, text: string)
    ensures |zeros| >= 1 && (forall i :: 0 <= i < |zeros| ==> zeros[i] == '0') && sign in {"", "-", "+"} ==>
      ParseInt(sign + zeros) == Some(0)
    ensures |text| > 0 && !IsJsSpace(text[0]) && text[0] != '-' && text[0] != '+' && DigitValue(text[0]) >= 10 ==>
      ParseInt(text).None?
  {
    if |zeros| >= 1 && (forall i :: 0 <= i < |zeros| ==> zeros[i] == '0') && sign in {"", "-", "+"} {
      ZerosValue(zeros);
      if sign == "+" {
        var s := sign + zeros;
        assert TrimStart(s) == s;
        assert SplitSign(s) == (false, zeros);
        assert |zeros| >= 2 ==> zeros[1] == '0';
        assert SplitRadix(zeros) == (10, zeros);
        DigitRunOfDecimal(zeros);
        assert zeros[..|zeros|] == zeros;
      } else {
        ParseIntOfDecimal(sign + zeros, sign == "-", zeros);
      }
    }
    if |text| > 0 && !IsJsSpace(text[0]) && text[0] != '-' && text[0] != '+' && DigitValue(text[0]) >= 10 {
      NonDigitIsNaN(text);
    }
  }

  // ---------------------------------------------------------------------------
  // PUT /api/assignments/:id

  /** The authorization rule: an admin, or the driver the assignment belongs to. */
  predicate MayUpdateAssignment(user: Session, a: Assignment) {
    user.role == ADMIN || (user.role == DRIVER && a.driverId == user.id)
  }

  /** What the handler decides before calling `updateAssignment`, in its order: an invalid
      body is 400, an unknown assignment 404, a missing session throws (500), a caller
      who is neither admin nor the assigned driver 403; otherwise the update runs. */
  datatype PutDecision = Refuse(status: int) | RunAssignmentUpdate

  function PutAssignment(bodyValid: bool, found: Option<Assignment>, user: Option<Session>): (r: PutDecision)
    ensures r.RunAssignmentUpdate? <==> bodyValid && found.Some? && user.Some? && MayUpdateAssignment(user.value, found.value)
    ensures r == Refuse(400) <==> !bodyValid
    ensures r == Refuse(404) <==> bodyValid && found.None?
    ensures r == Refuse(403) <==> bodyValid && found.Some? && user.Some? && !MayUpdateAssignment(user.value, found.value)
    ensures r.Refuse? ==> r.status in {400, 403, 404, 500}
  {
    if !bodyValid then Refuse(400)
    else if found.None? then Refuse(404)
    else if user.None? then Refuse(500)
    else if !MayUpdateAssignment(user.value, found.value) then Refuse(403)
    else RunAssignmentUpdate
  }

  /** A driver can change only their own assignment, and a plain user none at all. */
  lemma OnlyOwnerOrAdminUpdates(a: Assignment, user: Session)
    ensures PutAssignment(true, Some(a), Some(user)).RunAssignmentUpdate? && user.role != ADMIN ==>
      user.role == DRIVER && a.driverId == user.id
    ensures user.role == USER ==> PutAssignment(true, Some(a), Some(user)) == Refuse(403)
  {
  }

  // ---------------------------------------------------------------------------
  // POST /api/location-updates

  /** The schema check on the body: assignment id, latitude and longitude are required. */
  predicate ValidLocationBody(n: NewLocation) {
    n.assignmentId.Some? && n.latitude.Some? && n.longitude.Some?
  }

  /** The REST location report (behind the driver-role check): 400 for an invalid body, 404
      for an unknown assignment, 403 unless the assignment's driver is the caller, and
      otherwise 201 with the stored row. */
  function PostLocationUpdate(db: Db, user: Session, body: NewLocation): (r: (Reply<LocationUpdate>, Db))
    ensures StatusOf(r.0) == 201 <==>
      ValidLocationBody(body) && body.assignmentId.value in db.assignments &&
      db.assignments[body.assignmentId.value].driverId == user.id
    ensures StatusOf(r.0) == 201 ==>
      r.0.Json? && r.1.locations == db.locations + [r.0.body] && r.0.body.assignmentId == body.assignmentId.value
    ensures StatusOf(r.0) != 201 ==> r.1 == db
    ensures !ValidLocationBody(body) ==> StatusOf(r.0) == 400
    ensures ValidLocationBody(body) && body.assignmentId.value !in db.assignments ==> StatusOf(r.0) == 404
    ensures (ValidLocationBody(body) && body.assignmentId.value in db.assignments
             && db.assignments[body.assignmentId.value].driverId != user.id) ==> StatusOf(r.0) == 403
    ensures StatusOf(r.0) in {201, 400, 403, 404}
  {
    if !ValidLocationBody(body) then (Message(400, "Invalid location update data"), db)
    else match GetAssignment(db, body.assignmentId)
      case None => (Message(404, "Assignment not found"), db)
      case Some(a) =>
        if a.driverId != user.id then (Message(403, "Unauthorized to update location for this assignment"), db)
        else match CreateLocationUpdate(db, body)
          case None => (Message(500, "Failed to create location update"), db)
          case Some((db', row)) => (Json(201, row), db')
  }

  /** Unlike the socket path, the REST path stores nothing for a driver who does not own
      the assignment. */
  lemma RestReportNeedsOwnership(db: Db, user: Session, body: NewLocation)
    requires ValidLocationBody(body) && body.assignmentId.value in db.assignments
    requires db.assignments[body.assignmentId.value].driverId != user.id
    ensures PostLocationUpdate(db, user, body) == (Message(403, "Unauthorized to update location for this assignment"), db)
  {
  }

  // ---------------------------------------------------------------------------
  // Driver ratings

  datatype RatingsSource = RatingsByDriver(driverId: int) | RatingsByUser(userId: int) | RatingsForbidden

  /** A truthy `driverId` query wins; otherwise a user sees the ratings they gave, a driver
      the ratings they received, and anyone else is refused with 403. */
  function DriverRatingsSource(driverQ: Option<string>, user: Option<Session>): (r: RatingsSource)
    ensures TruthyInt(QueryId(driverQ)) ==> r == RatingsByDriver(QueryId(driverQ).value)
    ensures r.RatingsForbidden? <==>
      !TruthyInt(QueryId(driverQ)) && (user.None? || (user.value.role != USER && user.value.role != DRIVER))
    ensures r.RatingsByUser? ==> user.Some? && user.value.role == USER && r.userId == user.value.id
    ensures !TruthyInt(QueryId(driverQ)) && user.Some? && user.value.role == USER ==>
      r == RatingsByUser(user.value.id)
    ensures !TruthyInt(QueryId(driverQ)) && user.Some? && user.value.role == DRIVER ==>
      r == RatingsByDriver(user.value.id)
  {
    var driverId := QueryId(driverQ);
    if TruthyInt(driverId) then RatingsByDriver(driverId.value)
    else if user.Some? && user.value.role == USER then RatingsByUser(user.value.id)
    else if user.Some? && user.value.role == DRIVER then RatingsByDriver(user.value.id)
    else RatingsForbidden
  }

  /** An admin without a `driverId` query is refused: the rule has no admin case. */
  lemma AdminNeedsDriverQuery(user: Session)
    requires user.role == ADMIN
    ensures DriverRatingsSource(None, Some(user)) == RatingsForbidden
  {
  }

  /** The ratings a session sees without a query, set against the list endpoint's other
      source rule: a truthy query overrides every role, a driver's own list is the same
      whichever endpoint rule picks it, and a user's list is by author, never by driver. */
  lemma RatingsSourceAgreesWithRoles(q: Option<string>, user: Session)
    ensures TruthyInt(QueryId(q)) ==>
      DriverRatingsSource(q, Some(user)) == DriverRatingsSource(q, None) == RatingsByDriver(QueryId(q).value)
    ensures user.role == DRIVER ==>
      DriverRatingsSource(None, Some(user)) == RatingsByDriver(user.id)
      && AssignmentsSource(None, None, None, Some(user)) == ByDriver(user.id)
    ensures user.role == USER ==>
      DriverRatingsSource(None, Some(user)) == RatingsByUser(user.id)
      && !DriverRatingsSource(None, Some(user)).RatingsByDriver?
  {
  }

  datatype AverageBody = AverageBody(driverId: Option<int>, averageRating: real)

  /** `GET /api/driver-ratings/average/:driverId`: 404 when storage has no average. */
  function AverageRatingReply(driverParam: string, average: Option<real>): (r: Reply<AverageBody>)
    ensures r.Message? <==> average.None?
    ensures r.Message? ==> r.status == 404
    ensures r.Json? ==> r.status == 200 && r.body.averageRating == average.value && r.body.driverId == ParseInt(driverParam)
  {
    match average
    case None => Message(404, "No ratings found for this driver")
    case Some(avg) => Json(200, AverageBody(ParseInt(driverParam), avg))
  }

  // ---------------------------------------------------------------------------
  // GET /api/users

  /** A user as the list endpoint sends it: every field but the password. */
  datatype PublicUser = PublicUser(
    id: int, username: string, email: string, role: string,
    fullName: Option<string>, profileImage: Option<string>)

  function WithoutPassword(u: User): PublicUser {
    PublicUser(u.id, u.username, u.email, u.role, u.fullName, u.profileImage)
  }

  /** Putting a password back into a stripped user. */
  function WithPassword(p: PublicUser, password: string): User {
    User(p.id, p.username, p.email, password, p.role, p.fullName, p.profileImage)
  }

  /** The list endpoint drops each password and keeps every other field and the order:
      giving each entry its password back recovers the stored list. */
  function StripPasswords(users: seq<User>): (r: seq<PublicUser>)
    ensures |r| == |users|
    ensures forall i :: 0 <= i < |r| ==> WithPassword(r[i], users[i].password) == users[i]
  {
    seq(|users|, i requires 0 <= i < |users| => WithoutPassword(users[i]))
  }

  /** The list endpoint's answer does not depend on the stored passwords. */
  lemma StripPasswordsIgnoresPasswords(a: seq<User>, b: seq<User>)
    requires |a| == |b|
    requires forall i :: 0 <= i < |a| ==> a[i] == b[i].(password := a[i].password)
    ensures StripPasswords(a) == StripPasswords(b)
  {
  }

  /** `role ? getUsersByRole(role) : getAllUsers()`: an empty role filter lists everybody. */
  function UsersSource(roleQ: Option<string>): (r: Option<string>)
    ensures r.Some? <==> TruthyText(roleQ)
    ensures r.Some? ==> r == roleQ
  {
    if TruthyText(roleQ) then roleQ else None
  }

  // ---------------------------------------------------------------------------
  // Status mapping shared by the CRUD handlers

  /** `delete` handlers: storage `false` is 404, `true` is 204. */
  function DeleteReply(success: bool, notFound: string): (r: Reply<()>)
    ensures r.NoContent? <==> success
    ensures !success ==> r == Message(404, notFound)
  {
    if success then NoContent else Message(404, notFound)
  }

  /** Deleting answers 204 exactly when the statement removed a row; a failed statement is
      reported by storage as `false` and so becomes 404, never 500. */
  lemma DeleteStatusFollowsRowCount(rowCount: Option<int>, notFound: string)
    ensures StatusOf(DeleteReply(DeleteSucceeded(rowCount), notFound)) == 204 <==>
      rowCount.Some? && rowCount.value > 0
    ensures StatusOf(DeleteReply(DeleteSucceeded(rowCount), notFound)) in {204, 404}
  {
  }

  /** How a create handler ends: the body fails the schema, storage throws, or a row is
      created. */
  datatype CreateOutcome<T> = InvalidBody | StorageFailed | Created(row: T)

  /** A schema failure is 400, any other error 500, success 201 with the row. */
  function CreateReply<T>(outcome: CreateOutcome<T>, invalid: string, failed: string): (r: Reply<T>)
    ensures StatusOf(r) == 201 <==> outcome.Created?
    ensures StatusOf(r) == 400 <==> outcome.InvalidBody?
    ensures StatusOf(r) == 500 <==> outcome.StorageFailed?
    ensures outcome.Created? ==> r == Json(201, outcome.row)
  {
    match outcome
    case InvalidBody => Message(400, invalid)
    case StorageFailed => Message(500, failed)
    case Created(row) => Json(201, row)
  }
}

=== FILE: common.dfy ===
/** Value-level behaviour of the JavaScript runtime that the fleet application leans on:
    truthiness of optional values, `parseInt`, number-to-text, `trim`, `toLowerCase`
    and `includes`. `None` stands for `undefined` (and, for numbers, also `null` and `NaN`). */
module Common {

  datatype Option<+T> = None | Some(value: T) {
    function GetOr(default: T): T {
      match this
      case Some(v) => v
      case None => default
    }
  }

  // ---------------------------------------------------------------------------
  // Truthiness

  /** A string value is truthy when it is present and non-empty. */
  predicate TruthyText(s: Option<string>) {
    s.Some? && s.value != ""
  }

  /** A number is truthy when it is present (not undefined/null/NaN) and non-zero. */
  predicate TruthyInt(n: Option<int>) {
    n.Some? && n.value != 0
  }

  predicate TruthyReal(x: Option<real>) {
    x.Some? && x.value != 0.0
  }

  /** `s || d` on a possibly missing string. */
  function OrText(s: Option<string>, d: string): string {
    if TruthyText(s) then s.value else d
  }

  /** `x || undefined` on a possibly missing number: zero collapses to missing. */
  function OrMissing(x: Option<real>): Option<real> {
    if TruthyReal(x) then x else None
  }

  // ---------------------------------------------------------------------------
  // Subsequences

  /** `a` is `b` with some elements dropped and the rest kept in order. */
  predicate SubsequenceOf<T(==)>(a: seq<T>, b: seq<T>)
    decreases |b|
  {
    if |a| == 0 then true
    else if |b| == 0 then false
    else (a[0] == b[0] && SubsequenceOf(a[1..], b[1..])) || SubsequenceOf(a, b[1..])
  }

  /** `xs.filter(p)`: the elements satisfying `p`, in their original order. */
  function Filter<T(==,!new)>(xs: seq<T>, p: T -> bool): (r: seq<T>)
    ensures |r| <= |xs|
    ensures forall x :: x in r <==> x in xs && p(x)
    ensures SubsequenceOf(r, xs)
    ensures forall x :: multiset(r)[x] == if p(x) then multiset(xs)[x] else 0
    decreases |xs|
  {
    if |xs| == 0 then []
    else
      var rest := Filter(xs[1..], p);
      assert xs == [xs[0]] + xs[1..];
      assert multiset(xs) == multiset([xs[0]]) + multiset(xs[1..]);
      assert forall x :: x in xs <==> x == xs[0] || x in xs[1..];
      if p(xs[0]) then
        assert ([xs[0]] + rest)[1..] == rest;
        [xs[0]] + rest
      else rest
  }

  /** A filter that rejects nothing returns its input. */
  lemma {:induction false} FilterKeepsAll<T(!new)>(xs: seq<T>, p: T -> bool)
    requires forall i :: 0 <= i < |xs| ==> p(xs[i])
    ensures Filter(xs, p) == xs
    decreases |xs|
  {
    if |xs| > 0 {
      FilterKeepsAll(xs[1..], p);
      assert [xs[0]] + xs[1..] == xs;
    }
  }

  /** `xs.filter((_, i) => i % k === 0)`: the elements at positions divisible by `k`. The
      kept positions are `0, k, 2k, ...`, so the result is in the original order. */
  function EveryNth<T>(xs: seq<T>, k: nat): (r: seq<T>)
    requires k > 0
    ensures |r| == (|xs| + k - 1) / k
    ensures forall j :: 0 <= j < |r| ==> j * k < |xs| && r[j] == xs[j * k]
    decreases |xs|
  {
    if |xs| == 0 then []
    else
      var m := |xs| - 1;
      StrideCountStep(m, k);
      EveryNth(xs[..m], k) + if m % k == 0 then [xs[m]] else []
  }

  lemma MulAtLeast(k: int, a: int)
    requires k > 0 && a >= 1
    ensures k * a >= k
  {
    if a > 1 {
      MulAtLeast(k, a - 1);
      assert k * a == k * (a - 1) + k;
    }
  }

  /** Euclidean division recovers quotient and remainder. */
  lemma DivOfMultiplePlus(q: int, t: int, k: int)
    requires k > 0 && 0 <= t < k
    ensures (k * q + t) / k == q && (k * q + t) % k == t
  {
    var n := k * q + t;
    var d, m := n / k, n % k;
    assert k * d + m == n;
    assert k * (d - q) == t - m;
    if d - q >= 1 {
      MulAtLeast(k, d - q);
    } else if d - q <= -1 {
      MulAtLeast(k, q - d);
    }
  }

  /** How the number of multiples of `k` below a length grows by one element. */
  lemma StrideCountStep(m: nat, k: nat)
    requires k > 0
    ensures m % k == 0 ==> (m + k) / k == (m + k - 1) / k + 1 && ((m + k - 1) / k) * k == m
    ensures m % k != 0 ==> (m + k) / k == (m + k - 1) / k
  {
    var q, t := m / k, m % k;
    assert m == k * q + t;
    assert k * (q + 1) == k * q + k;
    if t == 0 {
      DivOfMultiplePlus(q, k - 1, k);
      DivOfMultiplePlus(q + 1, 0, k);
    } else {
      DivOfMultiplePlus(q + 1, t - 1, k);
      DivOfMultiplePlus(q + 1, t, k);
    }
  }

  // ---------------------------------------------------------------------------
  // Digits and number text

  predicate IsDigit(c: char) {
    '0' <= c <= '9'
  }

  function DigitChar(d: nat): (c: char)
    requires d < 10
    ensures IsDigit(c)
  {
    ('0' as int + d) as char
  }

  /** Value of an alphanumeric digit in any radix up to 36; 36 for every other character. */
  function DigitValue(c: char): nat {
    if '0' <= c <= '9' then c as int - '0' as int
    else if 'a' <= c <= 'z' then c as int - 'a' as int + 10
    else if 'A' <= c <= 'Z' then c as int - 'A' as int + 10
    else 36
  }

  /** Decimal text of a natural number, as `String(n)` prints it (no leading zeros). */
  function NatToString(n: nat): (s: string)
    ensures |s| >= 1
    ensures forall i :: 0 <= i < |s| ==> IsDigit(s[i])
    ensures n >= 10 ==> s[0] != '0'
    decreases n
  {
    if n < 10 then [DigitChar(n)] else NatToString(n / 10) + [DigitChar(n % 10)]
  }

  /** `String(n)` / `${n}` for an integer. */
  function IntToString(n: int): (s: string)
    ensures |s| >= 1
    ensures n < 0 <==> s[0] == '-'
  {
    if n < 0 then "-" + NatToString(-n) else NatToString(n)
  }

  /** `${x}` for a possibly undefined integer. */
  function IdText(x: Option<int>): string {
    match x
    case Some(n) => IntToString(n)
    case None => "undefined"
  }

  // ---------------------------------------------------------------------------
  // Whitespace, trimming and case

  /** The characters `String.prototype.trim` removes: WhiteSpace and LineTerminator. */
  predicate IsJsSpace(c: char) {
    || c == ' ' || c == '\t' || c == '\n' || c == '\r' || c == '\U{000B}' || c == '\U{000C}'
    || c == '\U{00A0}' || c == '\U{1680}' || ('\U{2000}' <= c <= '\U{200A}')
    || c == '\U{2028}' || c == '\U{2029}' || c == '\U{202F}' || c == '\U{205F}'
    || c == '\U{3000}' || c == '\U{FEFF}'
  }

  predicate Blank(s: string) {
    forall i :: 0 <= i < |s| ==> IsJsSpace(s[i])
  }

  /** Number of whitespace characters at the start of `s`. */
  function LeadingSpace(s: string): (n: nat)
    ensures n <= |s|
    ensures forall i :: 0 <= i < n ==> IsJsSpace(s[i])
    ensures n < |s| ==> !IsJsSpace(s[n])
  {
    if |s| > 0 && IsJsSpace(s[0]) then 1 + LeadingSpace(s[1..]) else 0
  }

  /** Number of whitespace characters at the end of `s`. */
  function TrailingSpace(s: string): (n: nat)
    ensures n <= |s|
    ensures forall i :: |s| - n <= i < |s| ==> IsJsSpace(s[i])
    ensures n < |s| ==> !IsJsSpace(s[|s| - n - 1])
  {
    if |s| > 0 && IsJsSpace(s[|s| - 1]) then 1 + TrailingSpace(s[..|s| - 1]) else 0
  }

  function TrimStart(s: string): string {
    s[LeadingSpace(s)..]
  }

  function Trim(s: string): string {
    var t := TrimStart(s);
    t[..|t| - TrailingSpace(t)]
  }

  /** `!s.trim()`: the trimmed text is empty exactly when the text is all whitespace. */
  lemma TrimEmptyIffBlank(s: string)
    ensures Trim(s) == "" <==> Blank(s)
  {
    if Blank(s) {
      assert LeadingSpace(s) == |s|;
    }
  }

  function LowerChar(c: char): char {
    if 'A' <= c <= 'Z' then (c as int + 32) as char else c
  }

  /** `toLowerCase`, on the ASCII letters. */
  function ToLower(s: string): (r: string)
    ensures |r| == |s|
  {
    seq(|s|, i requires 0 <= i < |s| => LowerChar(s[i]))
  }

  // ---------------------------------------------------------------------------
  // Substring search

  predicate OccursAt(hay: string, needle: string, i: nat) {
    i + |needle| <= |hay| && hay[i..i + |needle|] == needle
  }

  /** `hay.includes(needle)`. */
  predicate Contains(hay: string, needle: string) {
    exists i: nat | i <= |hay| :: OccursAt(hay, needle, i)
  }

  /** Every string includes the empty string: an empty search keeps everything. */
  lemma ContainsEmpty(hay: string)
    ensures Contains(hay, "")
  {
    assert OccursAt(hay, "", 0);
  }

  // ---------------------------------------------------------------------------
  // parseInt

  /** Length of the longest prefix of `s` made of digits valid in `radix`. */
  function DigitRun(s: string, radix: nat): (n: nat)
    ensures n <= |s|
    ensures forall i :: 0 <= i < n ==> DigitValue(s[i]) < radix
    ensures n < |s| ==> DigitValue(s[n]) >= radix
  {
    if |s| > 0 && DigitValue(s[0]) < radix then 1 + DigitRun(s[1..], radix) else 0
  }

  /** Positional value of a digit string, most significant digit first. */
  function ValueOf(ds: string, radix: nat): nat {
    if |ds| == 0 then 0
    else ValueOf(ds[..|ds| - 1], radix) * radix + DigitValue(ds[|ds| - 1])
  }

  /** The sign step of `parseInt`: one leading `-` or `+` is consumed. */
  function SplitSign(t: string): (bool, string) {
    if |t| > 0 && (t[0] == '-' || t[0] == '+') then (t[0] == '-', t[1..]) else (false, t)
  }

  /** The radix step of `parseInt` without a radix argument: `0x`/`0X` selects 16. */
  function SplitRadix(u: string): (nat, string) {
    if |u| >= 2 && u[0] == '0' && (u[1] == 'x' || u[1] == 'X') then (16, u[2..]) else (10, u)
  }

  /** The value of the longest digit run, or `None` when there is no digit. */
  function ReadDigits(body: string, radix: nat): Option<nat> {
    var n := DigitRun(body, radix);
    if n == 0 then None else Some(ValueOf(body[..n], radix))
  }

  /** `parseInt(s)` with no radix argument: leading whitespace is skipped, one sign is
      accepted, a `0x`/`0X` prefix selects radix 16, and the longest run of digits is
      read; `None` is `NaN` (no digit at all). */
  function ParseInt(s: string): Option<int> {
    var (negative, u) := SplitSign(TrimStart(s));
    var (radix, body) := SplitRadix(u);
    match ReadDigits(body, radix)
    case None => None
    case Some(v) => Some(if negative then -(v as int) else v as int)
  }

  lemma DigitValueOfDigitChar(d: nat)
    requires d < 10
    ensures DigitValue(DigitChar(d)) == d
  {
  }

  lemma {:induction false} ValueOfNatToString(n: nat)
    ensures ValueOf(NatToString(n), 10) == n
    decreases n
  {
    if n < 10 {
      DigitValueOfDigitChar(n);
    } else {
      var s := NatToString(n);
      var p := NatToString(n / 10);
      assert s == p + [DigitChar(n % 10)];
      assert s[..|s| - 1] == p;
      ValueOfNatToString(n / 10);
      DigitValueOfDigitChar(n % 10);
    }
  }

  lemma DigitRunOfDecimal(s: string)
    requires forall i :: 0 <= i < |s| ==> IsDigit(s[i])
    ensures DigitRun(s, 10) == |s|
  {
    if |s| > 0 {
      DigitRunOfDecimal(s[1..]);
    }
  }

  /** A run of zeros is worth zero. */
  lemma {:induction false} ZerosValue(ds: string)
    requires forall i :: 0 <= i < |ds| ==> ds[i] == '0'
    ensures ValueOf(ds, 10) == 0
  {
    if |ds| > 0 {
      ZerosValue(ds[..|ds| - 1]);
    }
  }

  /** `parseInt` of text whose first character is neither whitespace, a sign nor a decimal
      digit is `NaN`. */
  lemma NonDigitIsNaN(s: string)
    requires |s| > 0 && !IsJsSpace(s[0]) && s[0] != '-' && s[0] != '+' && DigitValue(s[0]) >= 10
    ensures ParseInt(s) == None
  {
    assert LeadingSpace(s) == 0;
    assert TrimStart(s) == s;
    assert SplitSign(s) == (false, s);
    assert SplitRadix(s) == (10, s);
    assert DigitRun(s, 10) == 0;
  }

  /** `parseInt` of an optional minus sign followed by decimal digits reads those digits. */
  lemma ParseIntOfDecimal(s: string, negative: bool, digits: string)
    requires |digits| >= 1 && forall i :: 0 <= i < |digits| ==> IsDigit(digits[i])
    requires s == (if negative then "-" else "") + digits
    ensures ParseInt(s) == Some(if negative then -(ValueOf(digits, 10) as int) else ValueOf(digits, 10) as int)
  {
    assert !IsJsSpace(s[0]);
    assert TrimStart(s) == s;
    assert SplitSign(s) == (negative, digits);
    assert |digits| >= 2 ==> IsDigit(digits[1]);
    assert SplitRadix(digits) == (10, digits);
    DigitRunOfDecimal(digits);
    assert digits[..|digits|] == digits;
    assert ReadDigits(digits, 10) == Some(ValueOf(digits, 10));
  }

  /** Reading back what `String(n)` printed gives `n`: `parseInt(String(n)) === n`. */
  lemma ParseIntOfIntToString(n: int)
    ensures ParseInt(IntToString(n)) == Some(n)
  {
    var m: nat := if n < 0 then -n else n;
    ValueOfNatToString(m);
    ParseIntOfDecimal(IntToString(n), n < 0, NatToString(m));
  }
}

=== FILE: dashboard.dfy ===
/** The view dispatch of client/src/pages/dashboard-page.tsx: the main panel shown for the
    current path and the signed-in user's role flags. The panel starts empty; a path the
    current role does not handle leaves the panel as it was. Paths match as wouter's
    `useRoute` matches them: letter case is ignored and one trailing `/` is accepted. */
module Dashboard {
  import opened Common
  import opened Schema
  import MyRoute
  import LiveRoutes

  datatype View =
    | AdminDashboard
    | RouteManagement
    | DriverManagement
    | VehicleManagement
    | LiveRoutesView(favoritesOnly: bool, showHistory: bool)
    | DriverRatingView
    | MyRouteView(showSchedule: bool, showRatings: bool)
    | VehicleInfo

  /** The role flags of the signed-in user. */
  datatype Flags = Flags(isAdmin: bool, isUser: bool, isDriver: bool)

  /** The flags a single role gives. */
  function FlagsOf(role: Option<string>): (f: Flags)
    ensures f.isAdmin <==> role == Some(ADMIN)
    ensures f.isUser <==> role == Some(USER)
    ensures f.isDriver <==> role == Some(DRIVER)
  {
    Flags(role == Some(ADMIN), role == Some(USER), role == Some(DRIVER))
  }

  /** The paths each role handles away from the root. */
  const ADMIN_PATHS: set<string> := {"/routes", "/drivers", "/vehicles"}
  const USER_PATHS: set<string> := {"/ratings", "/favorites", "/history"}
  const DRIVER_PATHS: set<string> := {"/vehicle", "/schedule", "/my-ratings"}

  /** The path a route pattern is compared with: one trailing `/` dropped (never the root's
      own slash) and letters lower-cased. */
  function NormalPath(path: string): (p: string)
    ensures |p| <= |path|
  {
    ToLower(if |path| > 2 && path[|path| - 1] == '/' then path[..|path| - 1] else path)
  }

  /** The view effect. At the root the first matching flag of admin, user, driver picks the
      home view. Elsewhere only the first set flag's paths are considered; anything else,
      including a root visit with no flag set, keeps the panel. */
  function Dispatch(prev: Option<View>, path: string, f: Flags): (r: Option<View>)
    ensures NormalPath(path) == "/" && f.isAdmin ==> r == Some(AdminDashboard)
    ensures NormalPath(path) == "/" && !f.isAdmin && f.isUser ==> r == Some(LiveRoutesView(false, false))
    ensures NormalPath(path) == "/" && !f.isAdmin && !f.isUser && f.isDriver ==> r == Some(MyRouteView(false, false))
    ensures NormalPath(path) != "/" && f.isAdmin && NormalPath(path) !in ADMIN_PATHS ==> r == prev
    ensures NormalPath(path) != "/" && !f.isAdmin && f.isUser && NormalPath(path) !in USER_PATHS ==> r == prev
    ensures (NormalPath(path) != "/" && !f.isAdmin && !f.isUser && f.isDriver
             && NormalPath(path) !in DRIVER_PATHS) ==> r == prev
    ensures !f.isAdmin && !f.isUser && !f.isDriver ==> r == prev
    ensures r != prev ==> r.Some?
  {
    var p := NormalPath(path);
    if p == "/" then
      if f.isAdmin then Some(AdminDashboard)
      else if f.isUser then Some(LiveRoutesView(false, false))
      else if f.isDriver then Some(MyRouteView(false, false))
      else prev
    else if f.isAdmin then
      if p == "/routes" then Some(RouteManagement)
      else if p == "/drivers" then Some(DriverManagement)
      else if p == "/vehicles" then Some(VehicleManagement)
      else prev
    else if f.isUser then
      if p == "/ratings" then Some(DriverRatingView)
      else if p == "/favorites" then Some(LiveRoutesView(true, false))
      else if p == "/history" then Some(LiveRoutesView(false, true))
      else prev
    else if f.isDriver then
      if p == "/vehicle" then Some(VehicleInfo)
      else if p == "/schedule" then Some(MyRouteView(true, false))
      else if p == "/my-ratings" then Some(MyRouteView(false, true))
      else prev
    else prev
  }

  /** A path already in lower case without a trailing slash is compared as it is. */
  lemma NormalPathOfPlain(path: string)
    requires (|path| >= 1 && path[|path| - 1] != '/') || path == "/"
    requires forall i :: 0 <= i < |path| ==> !('A' <= path[i] <= 'Z')
    ensures NormalPath(path) == path
  {
  }

  /** Changing the letter case of a path, or adding one trailing `/` to it, opens the same
      view. */
  lemma PathCaseAndSlashIgnored(prev: Option<View>, path: string, f: Flags)
    requires |path| >= 2 && path[|path| - 1] != '/'
    ensures Dispatch(prev, path + "/", f) == Dispatch(prev, path, f)
    ensures Dispatch(prev, ToLower(path), f) == Dispatch(prev, path, f)
  {
    assert (path + "/")[..|path|] == path;
    var lower := ToLower(path);
    assert lower[|lower| - 1] != '/';
    assert NormalPath(lower) == ToLower(lower);
    assert ToLower(lower) == lower;
  }

  /** For an admin, `/Routes` and `/routes/` open the route management like `/routes`. */
  lemma AdminRoutesPathVariants(prev: Option<View>)
    ensures Dispatch(prev, "/Routes", FlagsOf(Some(ADMIN))) == Some(RouteManagement)
    ensures Dispatch(prev, "/routes/", FlagsOf(Some(ADMIN))) == Some(RouteManagement)
  {
    assert ToLower("/Routes") == "/routes";
    assert "/routes/"[..7] == "/routes";
    RolePathsArePlain();
  }

  /** Each role's own paths open that role's views, whatever was shown before. */
  lemma RolePathsOpenTheirViews(prev: Option<View>)
    ensures Dispatch(prev, "/routes", FlagsOf(Some(ADMIN))) == Some(RouteManagement)
    ensures Dispatch(prev, "/drivers", FlagsOf(Some(ADMIN))) == Some(DriverManagement)
    ensures Dispatch(prev, "/vehicles", FlagsOf(Some(ADMIN))) == Some(VehicleManagement)
    ensures Dispatch(prev, "/ratings", FlagsOf(Some(USER))) == Some(DriverRatingView)
    ensures Dispatch(prev, "/favorites", FlagsOf(Some(USER))) == Some(LiveRoutesView(true, false))
    ensures Dispatch(prev, "/history", FlagsOf(Some(USER))) == Some(LiveRoutesView(false, true))
    ensures Dispatch(prev, "/vehicle", FlagsOf(Some(DRIVER))) == Some(VehicleInfo)
    ensures Dispatch(prev, "/schedule", FlagsOf(Some(DRIVER))) == Some(MyRouteView(true, false))
    ensures Dispatch(prev, "/my-ratings", FlagsOf(Some(DRIVER))) == Some(MyRouteView(false, true))
  {
    RolePathsArePlain();
  }

  /** Every role path is already in the form the matcher compares. */
  lemma RolePathsArePlain()
    ensures forall p :: p in ADMIN_PATHS + USER_PATHS + DRIVER_PATHS ==> NormalPath(p) == p
  {
    forall p | p in ADMIN_PATHS + USER_PATHS + DRIVER_PATHS
      ensures NormalPath(p) == p
    {
      NormalPathOfPlain(p);
    }
  }

  /** A single role never reaches another role's views: a path outside its own list (and
      not the root) keeps whatever was shown. */
  lemma ForeignPathKeepsView(prev: Option<View>, path: string, role: string)
    requires role in {ADMIN, USER, DRIVER} && NormalPath(path) != "/"
    requires role == ADMIN ==> NormalPath(path) !in ADMIN_PATHS
    requires role == USER ==> NormalPath(path) !in USER_PATHS
    requires role == DRIVER ==> NormalPath(path) !in DRIVER_PATHS
    ensures Dispatch(prev, path, FlagsOf(Some(role))) == prev
  {
  }

  /** The favourites and history views narrow the route list as the live-route page says,
      and the schedule and ratings views open the driver page on their own tab. */
  lemma ViewsConfigureTheirPages(prev: Option<View>, filtered: seq<LiveRoutes.LiveRoute>)
    ensures Dispatch(prev, "/favorites", FlagsOf(Some(USER))) == Some(LiveRoutesView(true, false))
    ensures LiveRoutes.DisplayedRoutes(filtered, true, false) == EveryNth(filtered, 2)
    ensures Dispatch(prev, "/history", FlagsOf(Some(USER))) == Some(LiveRoutesView(false, true))
    ensures LiveRoutes.DisplayedRoutes(filtered, false, true) == EveryNth(filtered, 3)
    ensures Dispatch(prev, "/schedule", FlagsOf(Some(DRIVER))) == Some(MyRouteView(true, false))
    ensures MyRoute.InitialTab(true, false) == "schedule"
    ensures Dispatch(prev, "/my-ratings", FlagsOf(Some(DRIVER))) == Some(MyRouteView(false, true))
    ensures MyRoute.InitialTab(false, true) == "ratings"
  {
    RolePathsArePlain();
  }
}

=== FILE: live_routes.dfy ===
/** The passenger's live-route page of client/src/components/user/live-routes.tsx: which
    channels it subscribes to, how pushed positions are merged, how each active route is
    enriched with its in-progress assignments, and how the list is searched and narrowed.
    The random mock fields (status, occupancy) are not modelled; the random fallback
    coordinate of a vehicle without a position is a parameter. */
module LiveRoutes {
  import opened Common
  import opened Schema
  import opened Storage
  import Realtime

  // ---------------------------------------------------------------------------
  // Subscriptions

  /** The route channels the page subscribes to, one per fetched route, in order; nothing
      while the routes have not arrived. */
  function RouteChannels(routes: Option<seq<Route>>): (r: seq<string>)
    ensures routes.None? ==> r == []
    ensures routes.Some? ==> |r| == |routes.value|
    ensures routes.Some? ==> forall i :: 0 <= i < |r| ==> r[i] == "route:" + IntToString(routes.value[i].id)
  {
    match routes
    case None => []
    case Some(rs) => seq(|rs|, i requires 0 <= i < |rs| => "route:" + IntToString(rs[i].id))
  }

  /** The page and the server agree on the channel name: a viewer that subscribed to the
      page's channels is in the audience the server's second handler block publishes a
      driver's report to, whenever the report's assignment belongs to one of the routes. */
  lemma ViewerHearsRouteBroadcast(s: Realtime.Server, driver: Realtime.ConnId, f: Realtime.Frame,
                                  viewer: Realtime.ConnId, routes: seq<Route>, i: int)
    requires driver in s.clients && viewer in s.clients && s.clients[viewer].open
    requires forall ch :: ch in RouteChannels(Some(routes)) ==> ch in s.clients[viewer].subscriptions
    requires f.Report? && s.clients[driver].role == Some(DRIVER)
    requires CreateLocationUpdate(s.db, Realtime.ToNewLocation(f)).Some?
    requires 0 <= i < |routes|
    requires GetAssignment(s.db, f.assignmentId).Some? && GetAssignment(s.db, f.assignmentId).value.routeId == routes[i].id
    ensures exists k :: (0 <= k < |Realtime.SecondBlock(s, driver, f).out| &&
                         viewer in Realtime.SecondBlock(s, driver, f).out[k].to &&
                         Realtime.SecondBlock(s, driver, f).out[k].envelope.LocationBroadcast?)
  {
    var chans := RouteChannels(Some(routes));
    assert chans[i] in chans;
    var out := Realtime.SecondBlock(s, driver, f).out;
    assert |out| == 2 && out[1].to == Realtime.ChannelAudience(s.clients, chans[i]);
  }

  // ---------------------------------------------------------------------------
  // Pushed positions

  /** The newest pushed row for each assignment. */
  type Positions = map<int, LocationUpdate>

  /** The merge effect: a `location_update` message overwrites the entry for its
      assignment; any other message, or none, leaves the map as it was. */
  function MergeLocation(prev: Positions, last: Option<Realtime.Envelope>): (r: Positions)
    ensures last.Some? && last.value.LocationBroadcast? ==>
      r.Keys == prev.Keys + {last.value.update.assignmentId} &&
      r[last.value.update.assignmentId] == last.value.update
    ensures forall id :: id in prev && !(last.Some? && last.value.LocationBroadcast? && id == last.value.update.assignmentId) ==>
      id in r && r[id] == prev[id]
    ensures !(last.Some? && last.value.LocationBroadcast?) ==> r == prev
  {
    match last
    case Some(LocationBroadcast(u, _)) => prev[u.assignmentId := u]
    case _ => prev
  }

  /** The map after a sequence of messages, oldest first. */
  function MergeAll(prev: Positions, messages: seq<Realtime.Envelope>): Positions
    decreases |messages|
  {
    if |messages| == 0 then prev
    else MergeLocation(MergeAll(prev, messages[..|messages| - 1]), Some(messages[|messages| - 1]))
  }

  /** The last location row pushed for an assignment, if any. */
  function LatestFor(messages: seq<Realtime.Envelope>, id: int): Option<LocationUpdate>
    decreases |messages|
  {
    if |messages| == 0 then None
    else
      var m := messages[|messages| - 1];
      if m.LocationBroadcast? && m.update.assignmentId == id then Some(m.update)
      else LatestFor(messages[..|messages| - 1], id)
  }

  /** After any run of messages, each assignment shows the last row pushed for it, and an
      assignment nothing was pushed for keeps its earlier entry (or stays absent). */
  lemma {:induction false} MergeAllKeepsLatest(prev: Positions, messages: seq<Realtime.Envelope>, id: int)
    ensures LatestFor(messages, id).Some? ==> id in MergeAll(prev, messages) && MergeAll(prev, messages)[id] == LatestFor(messages, id).value
    ensures LatestFor(messages, id).None? ==> (id in MergeAll(prev, messages) <==> id in prev)
    ensures LatestFor(messages, id).None? && id in prev ==> MergeAll(prev, messages)[id] == prev[id]
    decreases |messages|
  {
    if |messages| > 0 {
      MergeAllKeepsLatest(prev, messages[..|messages| - 1], id);
    }
  }

  /** Receiving the same message again changes nothing more. */
  lemma MergeIdempotent(prev: Positions, last: Option<Realtime.Envelope>)
    ensures MergeLocation(MergeLocation(prev, last), last) == MergeLocation(prev, last)
  {
  }

  // ---------------------------------------------------------------------------
  // Enriched routes

  /** One vehicle on the map. */
  datatype VehicleMarker = VehicleMarker(lat: real, lng: real, vehicleId: int, vehicleNumber: string, assignmentId: int)

  /** A route with the fields the page derives. */
  datatype LiveRoute = LiveRoute(route: Route, activeVehicles: int, frequency: int, locations: seq<VehicleMarker>)

  const IN_PROGRESS := "in-progress"

  /** The assignments of a route that are under way; none while assignments are loading. */
  function RouteAssignments(assignments: Option<seq<Assignment>>, routeId: int): (r: seq<Assignment>)
    ensures assignments.None? ==> r == []
    ensures assignments.Some? ==> SubsequenceOf(r, assignments.value)
    ensures forall a :: a in r <==> assignments.Some? && a in assignments.value && a.routeId == routeId && a.status == IN_PROGRESS
  {
    match assignments
    case None => []
    case Some(xs) => Filter(xs, (a: Assignment) => a.routeId == routeId && a.status == IN_PROGRESS)
  }

  /** The map label of a vehicle. */
  function VehicleNumber(vehicleId: int): string {
    "Bus #" + IntToString(101 + vehicleId)
  }

  /** `update?.latitude || fallback` and the same for the longitude: a pushed coordinate is
      used unless it is absent or zero. */
  function Marker(a: Assignment, positions: Positions, fallback: int -> (real, real)): (m: VehicleMarker)
    ensures m.vehicleId == a.vehicleId && m.assignmentId == a.id && m.vehicleNumber == VehicleNumber(a.vehicleId)
    ensures a.id in positions && positions[a.id].latitude != 0.0 ==> m.lat == positions[a.id].latitude
    ensures a.id in positions && positions[a.id].longitude != 0.0 ==> m.lng == positions[a.id].longitude
    ensures !(a.id in positions && positions[a.id].latitude != 0.0) ==> m.lat == fallback(a.id).0
    ensures !(a.id in positions && positions[a.id].longitude != 0.0) ==> m.lng == fallback(a.id).1
  {
    var u: Option<LocationUpdate> := if a.id in positions then Some(positions[a.id]) else None;
    var lat := if u.Some? then TruthyReal(Some(u.value.latitude)) else false;
    var lng := if u.Some? then TruthyReal(Some(u.value.longitude)) else false;
    VehicleMarker(if lat then u.value.latitude else fallback(a.id).0,
                  if lng then u.value.longitude else fallback(a.id).1,
                  a.vehicleId, VehicleNumber(a.vehicleId), a.id)
  }

  /** One entry of `enhancedRoutes`: the vehicle count is the number of in-progress
      assignments, there is one marker per such assignment in the same order, and a zero
      frequency reads as every 15 minutes. */
  function Enhance(route: Route, assignments: Option<seq<Assignment>>, positions: Positions,
                   fallback: int -> (real, real)): (r: LiveRoute)
    ensures r.route == route
    ensures r.activeVehicles == |RouteAssignments(assignments, route.id)| == |r.locations|
    ensures forall i :: 0 <= i < |r.locations| ==>
      r.locations[i] == Marker(RouteAssignments(assignments, route.id)[i], positions, fallback)
    ensures r.frequency != 0
    ensures route.frequency != 0 ==> r.frequency == route.frequency
    ensures route.frequency == 0 ==> r.frequency == 15
  {
    var ra := RouteAssignments(assignments, route.id);
    LiveRoute(route, |ra|,
              if TruthyInt(Some(route.frequency)) then route.frequency else 15,
              seq(|ra|, i requires 0 <= i < |ra| => Marker(ra[i], positions, fallback)))
  }

  /** `enhancedRoutes`: every fetched route, enriched, in order. */
  function EnhancedRoutes(routes: Option<seq<Route>>, assignments: Option<seq<Assignment>>, positions: Positions,
                          fallback: int -> (real, real)): (r: seq<LiveRoute>)
    ensures routes.None? ==> r == []
    ensures routes.Some? ==> |r| == |routes.value|
    ensures routes.Some? ==> forall i :: 0 <= i < |r| ==> r[i] == Enhance(routes.value[i], assignments, positions, fallback)
  {
    match routes
    case None => []
    case Some(rs) => seq(|rs|, i requires 0 <= i < |rs| => Enhance(rs[i], assignments, positions, fallback))
  }

  /** A pushed position moves the marker of its assignment on every route the assignment
      is running on: the marker reads the pushed coordinates unless they are zero. */
  lemma PushedPositionMovesMarker(route: Route, assignments: Option<seq<Assignment>>, prev: Positions,
                                  u: LocationUpdate, routeId: Option<int>, fallback: int -> (real, real), i: int)
    requires 0 <= i < |RouteAssignments(assignments, route.id)|
    requires RouteAssignments(assignments, route.id)[i].id == u.assignmentId
    requires u.latitude != 0.0 && u.longitude != 0.0
    ensures var m := Enhance(route, assignments, MergeLocation(prev, Some(Realtime.LocationBroadcast(u, routeId))), fallback).locations[i];
      m.lat == u.latitude && m.lng == u.longitude && m.assignmentId == u.assignmentId
  {
  }

  // ---------------------------------------------------------------------------
  // Search and narrowing

  /** A route passes the search when its lower-cased name contains the lower-cased query,
      or it has a non-empty description whose lower-cased text does. */
  predicate MatchesSearch(route: Route, query: string) {
    Contains(ToLower(route.name), ToLower(query)) ||
    (TruthyText(route.description) && Contains(ToLower(route.description.value), ToLower(query)))
  }

  /** `filteredRoutes`: the routes that pass the search, in their original order. */
  function FilteredRoutes(routes: seq<LiveRoute>, query: string): (r: seq<LiveRoute>)
    ensures SubsequenceOf(r, routes)
    ensures forall x :: x in r <==> x in routes && MatchesSearch(x.route, query)
  {
    Filter(routes, (x: LiveRoute) => MatchesSearch(x.route, query))
  }

  /** An empty search keeps every route. */
  lemma EmptySearchKeepsAll(routes: seq<LiveRoute>)
    ensures FilteredRoutes(routes, "") == routes
  {
    forall i | 0 <= i < |routes|
      ensures MatchesSearch(routes[i].route, "")
    {
      ContainsEmpty(ToLower(routes[i].route.name));
    }
    FilterKeepsAll(routes, (x: LiveRoute) => MatchesSearch(x.route, ""));
  }

  /** Lower-casing is idempotent on the ASCII letters. */
  lemma ToLowerIdempotent(s: string)
    ensures ToLower(ToLower(s)) == ToLower(s)
  {
    assert forall i :: 0 <= i < |s| ==> LowerChar(LowerChar(s[i])) == LowerChar(s[i]);
  }

  /** The case of the query does not matter. */
  lemma SearchIgnoresQueryCase(route: Route, query: string)
    ensures MatchesSearch(route, ToLower(query)) == MatchesSearch(route, query)
  {
    ToLowerIdempotent(query);
  }

  /** `displayedRoutes`: the favourites view keeps positions 0, 2, 4, ...; otherwise the
      history view keeps positions 0, 3, 6, ...; otherwise the filtered list is shown. */
  function DisplayedRoutes(filtered: seq<LiveRoute>, favoritesOnly: bool, showHistory: bool): (r: seq<LiveRoute>)
    ensures favoritesOnly ==> |r| == (|filtered| + 1) / 2
    ensures favoritesOnly ==> forall j :: 0 <= j < |r| ==> j * 2 < |filtered| && r[j] == filtered[j * 2]
    ensures !favoritesOnly && showHistory ==> |r| == (|filtered| + 2) / 3
    ensures !favoritesOnly && showHistory ==> forall j :: 0 <= j < |r| ==> j * 3 < |filtered| && r[j] == filtered[j * 3]
    ensures !favoritesOnly && !showHistory ==> r == filtered
  {
    if favoritesOnly then EveryNth(filtered, 2)
    else if showHistory then EveryNth(filtered, 3)
    else filtered
  }

  /** Both narrowed views keep the first route of a non-empty list. */
  lemma NarrowedViewsKeepFirst(filtered: seq<LiveRoute>, favoritesOnly: bool, showHistory: bool)
    requires |filtered| > 0
    ensures |DisplayedRoutes(filtered, favoritesOnly, showHistory)| > 0
    ensures DisplayedRoutes(filtered, favoritesOnly, showHistory)[0] == filtered[0]
  {
    var r := DisplayedRoutes(filtered, favoritesOnly, showHistory);
    assert |r| > 0 && 0 * 2 == 0 && 0 * 3 == 0;
  }
}

=== FILE: my_route.dfy ===
/** The driver's route page of client/src/components/driver/my-route.tsx: which tab opens,
    which queries run, the stop list with its statuses and times, starting the route and
    the position reports it sends. Times are minutes after midnight of the current day;
    the clock, the geolocation service and the coin that makes a completed stop two
    minutes late are inputs. */
module MyRoute {
  import opened Common
  import opened Schema
  import Realtime

  // ---------------------------------------------------------------------------
  // Page set-up

  /** `activeTab`'s initial value: the schedule wins over the ratings. */
  function InitialTab(showSchedule: bool, showRatings: bool): (tab: string)
    ensures tab in {"schedule", "ratings", "route"}
    ensures tab == "schedule" <==> showSchedule
    ensures tab == "ratings" <==> !showSchedule && showRatings
  {
    if showSchedule then "schedule" else if showRatings then "ratings" else "route"
  }

  const IN_PROGRESS := "in-progress"

  /** The `select` of the assignment query: the first in-progress assignment, if any. */
  function ActiveAssignment(xs: seq<Assignment>): (r: Option<Assignment>)
    ensures r.Some? <==> exists i :: 0 <= i < |xs| && xs[i].status == IN_PROGRESS
    ensures r.Some? ==> r.value in xs && r.value.status == IN_PROGRESS
    ensures r.Some? ==> exists i :: (0 <= i < |xs| && xs[i] == r.value &&
                                     forall j :: 0 <= j < i ==> xs[j].status != IN_PROGRESS)
    decreases |xs|
  {
    if |xs| == 0 then None
    else if xs[0].status == IN_PROGRESS then Some(xs[0])
    else
      var r := ActiveAssignment(xs[1..]);
      if r.Some? then
        var i :| 0 <= i < |xs[1..]| && xs[1..][i] == r.value && forall j :: 0 <= j < i ==> xs[1..][j].status != IN_PROGRESS;
        assert xs[i + 1] == r.value && forall j :: 0 <= j < i + 1 ==> xs[j].status != IN_PROGRESS;
        r
      else r
  }

  /** The route and stop queries run only for an assignment with a truthy route id. */
  function RouteQueriesEnabled(assignment: Option<Assignment>): (enabled: bool)
    ensures enabled <==> assignment.Some? && assignment.value.routeId != 0
  {
    assignment.Some? && TruthyInt(Some(assignment.value.routeId))
  }

  /** The ratings query runs only on the ratings view of a signed-in driver with a truthy id. */
  function RatingsQueryEnabled(userId: Option<int>, showRatings: bool): (enabled: bool)
    ensures enabled <==> userId.Some? && userId.value != 0 && showRatings
  {
    TruthyInt(userId) && showRatings
  }

  // ---------------------------------------------------------------------------
  // Stops

  datatype StopStatus = Completed | Current | Upcoming

  /** A stop with what the page derives for it; times are minutes after midnight. */
  datatype EnhancedStop = EnhancedStop(stop: RouteStop, status: StopStatus, scheduledAt: int,
                                       actualAt: Option<int>, eta: Option<int>)

  /** 09:00 plus a quarter of an hour per earlier stop. */
  const FIRST_STOP := 9 * 60
  const STOP_INTERVAL := 15

  /** One entry of `enhancedStops`. Before the route starts every stop is upcoming; after
      it, the first two stops are done (on time or two minutes late), the third is the
      current one, due three minutes from now, and the rest are upcoming. */
  function EnhanceStop(stop: RouteStop, index: nat, started: bool, now: int, late: bool): (r: EnhancedStop)
    ensures r.stop == stop && r.scheduledAt == FIRST_STOP + STOP_INTERVAL * index
    ensures !started ==> r.status == Upcoming && r.actualAt.None? && r.eta.None?
    ensures started ==> (r.status == Completed <==> index < 2) && (r.status == Current <==> index == 2)
    ensures r.actualAt.Some? <==> r.status == Completed
    ensures r.actualAt.Some? ==> r.actualAt.value - r.scheduledAt in {0, 2}
    ensures r.eta.Some? <==> r.status == Current
    ensures r.eta.Some? ==> r.eta.value == now + 3
  {
    var at := FIRST_STOP + STOP_INTERVAL * index;
    if started && index < 2 then EnhancedStop(stop, Completed, at, Some(at + if late then 2 else 0), None)
    else if started && index == 2 then EnhancedStop(stop, Current, at, None, Some(now + 3))
    else EnhancedStop(stop, Upcoming, at, None, None)
  }

  /** `enhancedStops`: one entry per stop in the same order, or none while the stops have
      not arrived. `late(i)` is the coin tossed for stop `i`. */
  function EnhancedStops(stops: Option<seq<RouteStop>>, started: bool, now: int, late: int -> bool): (r: seq<EnhancedStop>)
    ensures stops.None? ==> r == []
    ensures stops.Some? ==> |r| == |stops.value|
    ensures stops.Some? ==> forall i :: 0 <= i < |r| ==> r[i] == EnhanceStop(stops.value[i], i, started, now, late(i))
  {
    match stops
    case None => []
    case Some(ss) => seq(|ss|, i requires 0 <= i < |ss| => EnhanceStop(ss[i], i, started, now, late(i)))
  }

  function Rank(s: StopStatus): nat {
    match s
    case Completed => 0
    case Current => 1
    case Upcoming => 2
  }

  /** Along the list, completed stops come first, then at most one current stop, then the
      upcoming ones; and each stop is due a quarter of an hour after the one before. */
  lemma StopsInOrder(stops: Option<seq<RouteStop>>, started: bool, now: int, late: int -> bool, i: int, j: int)
    requires 0 <= i < j < |EnhancedStops(stops, started, now, late)|
    ensures var r := EnhancedStops(stops, started, now, late);
      && Rank(r[i].status) <= Rank(r[j].status)
      && !(r[i].status == Current && r[j].status == Current)
      && r[j].scheduledAt - r[i].scheduledAt == STOP_INTERVAL * (j - i)
  {
  }

  /** Once the route has started and has at least three stops, exactly one stop is current,
      and it is the third. */
  lemma ThirdStopIsCurrent(stops: seq<RouteStop>, now: int, late: int -> bool)
    requires |stops| >= 3
    ensures var r := EnhancedStops(Some(stops), true, now, late);
      r[2].status == Current && forall i :: 0 <= i < |r| && i != 2 ==> r[i].status != Current
  {
  }

  // ---------------------------------------------------------------------------
  // Clock text

  /** Two-digit minutes. */
  function Pad2(n: nat): (s: string)
    requires n < 100
    ensures |s| == 2
  {
    [DigitChar(n / 10), DigitChar(n % 10)]
  }

  /** `format(t, 'h:mm a')` for a time `minutes` after midnight of the current day: a
      12-hour clock with two-digit minutes and an AM/PM marker; later days wrap. */
  function ClockText(minutes: nat): (text: string)
    ensures |text| >= 7
    ensures text[|text| - 2..] == (if (minutes / 60) % 24 < 12 then "AM" else "PM")
  {
    var h := (minutes / 60) % 24;
    var h12 := if h % 12 == 0 then 12 else h % 12;
    var text := NatToString(h12) + ":" + Pad2(minutes % 60) + " " + (if h < 12 then "AM" else "PM");
    assert text[|text| - 2..] == (if h < 12 then "AM" else "PM");
    text
  }

  predicate AllDigits(s: string) {
    forall i :: 0 <= i < |s| ==> IsDigit(s[i])
  }

  /** Reads an `h:mm AM` / `h:mm PM` text back to minutes after midnight: one or two hour
      digits from 1 to 12, two minute digits below 60. `None` for any other shape. */
  function ReadClock(text: string): Option<nat> {
    if |text| < 7 || |text| > 8 then None
    else
      var k := |text| - 6;
      if text[k] != ':' || text[k + 3] != ' ' then None
      else ClockFields(text[..k], text[k + 1..k + 3], text[k + 4..])
  }

  /** The hour digits, minute digits and marker of a clock text, as minutes after midnight. */
  function ClockFields(hours: string, mm: string, suffix: string): Option<nat> {
    if suffix != "AM" && suffix != "PM" then None
    else if !AllDigits(hours) || !AllDigits(mm) then None
    else
      var h := ValueOf(hours, 10);
      var m := ValueOf(mm, 10);
      if h < 1 || h > 12 || m > 59 then None
      else Some((h % 12 + (if suffix == "PM" then 12 else 0)) * 60 + m)
  }

  lemma Pad2Value(n: nat)
    requires n < 100
    ensures AllDigits(Pad2(n)) && ValueOf(Pad2(n), 10) == n
  {
    DigitValueOfDigitChar(n / 10);
    DigitValueOfDigitChar(n % 10);
    var p := Pad2(n);
    assert p[..1] == [DigitChar(n / 10)] && p[..1][..0] == [];
    assert ValueOf(p[..1], 10) == n / 10;
    assert ValueOf(p, 10) == (n / 10) * 10 + n % 10;
  }

  /** `ReadClock` on a text of the written shape reads its hour and minute digits. */
  lemma ReadClockParts(hours: string, mm: string, suffix: string)
    requires 1 <= |hours| <= 2 && |mm| == 2 && |suffix| == 2
    ensures ReadClock(hours + ":" + mm + " " + suffix) == ClockFields(hours, mm, suffix)
  {
    var text := hours + ":" + mm + " " + suffix;
    var k := |hours|;
    assert |text| == k + 6;
    assert text[k] == ':' && text[k + 3] == ' ';
    assert text[..k] == hours;
    assert text[k + 1..k + 3] == mm;
    assert text[k + 4..] == suffix;
  }

  /** The hour shown, its marker and the minutes give back the time of day. */
  lemma ClockArithmetic(minutes: nat)
    ensures var h := (minutes / 60) % 24;
      var h12 := if h % 12 == 0 then 12 else h % 12;
      (h12 % 12 + (if h < 12 then 0 else 12)) * 60 + minutes % 60 == minutes % 1440
  {
    var q, r := minutes / 60, minutes % 60;
    var h := q % 24;
    var d := q / 24;
    assert minutes == 60 * q + r;
    assert q == 24 * d + h;
    assert 60 * q == 1440 * d + 60 * h;
    DivOfMultiplePlus(d, 60 * h + r, 1440);
  }

  /** The hour field of a clock text: one or two decimal digits worth the hour. */
  lemma HourText(n: nat)
    requires 1 <= n <= 12
    ensures 1 <= |NatToString(n)| <= 2 && AllDigits(NatToString(n)) && ValueOf(NatToString(n), 10) == n
  {
    if n >= 10 {
      assert NatToString(n) == NatToString(1) + [DigitChar(n % 10)];
    }
    ValueOfNatToString(n);
  }

  /** The fields of a written clock text read back as the hour and minutes they show. */
  lemma ClockFieldsOfWritten(h12: nat, mm: nat, pm: bool)
    requires 1 <= h12 <= 12 && mm < 60
    ensures ClockFields(NatToString(h12), Pad2(mm), if pm then "PM" else "AM") ==
      Some((h12 % 12 + (if pm then 12 else 0)) * 60 + mm)
  {
    HourText(h12);
    Pad2Value(mm);
  }

  /** The clock text reads back as the time of day it was written for: the 12-hour hour,
      the minutes and the AM/PM marker together lose nothing but whole days. */
  lemma ClockRoundTrip(minutes: nat)
    ensures ReadClock(ClockText(minutes)) == Some(minutes % 1440)
  {
    var h := (minutes / 60) % 24;
    var h12 := if h % 12 == 0 then 12 else h % 12;
    var suffix := if h < 12 then "AM" else "PM";
    HourText(h12);
    ReadClockParts(NatToString(h12), Pad2(minutes % 60), suffix);
    assert ClockText(minutes) == NatToString(h12) + ":" + Pad2(minutes % 60) + " " + suffix;
    ClockFieldsOfWritten(h12, minutes % 60, h >= 12);
    ClockArithmetic(minutes);
  }

  /** The first stop is at nine in the morning, the fifth at ten, and the thirteenth at noon. */
  lemma ScheduleExamples()
    ensures ClockText(FIRST_STOP) == "9:00 AM"
    ensures ClockText(FIRST_STOP + STOP_INTERVAL * 4) == "10:00 AM"
    ensures ClockText(FIRST_STOP + STOP_INTERVAL * 12) == "12:00 PM"
  {
  }

  // ---------------------------------------------------------------------------
  // Starting the route

  datatype Tracking = Tracking(started: bool, position: Option<(real, real)>)

  /** The Start Route button shows only while the route has not started. */
  function StartButtonShown(t: Tracking): (shown: bool)
    ensures shown <==> !t.started
  {
    !t.started
  }

  /** `startRoute`: the route is started and the last position is kept. */
  function StartRoute(t: Tracking): (r: Tracking)
    ensures r.started && r.position == t.position
  {
    Tracking(true, t.position)
  }

  /** Starting hides the button, and starting twice is starting once. */
  lemma StartRouteHidesButton(t: Tracking)
    ensures !StartButtonShown(StartRoute(t))
    ensures StartRoute(StartRoute(t)) == StartRoute(t)
  {
  }

  /** The position watcher's callback, registered by `startRoute`: the position is recorded,
      and a location report goes out only when there is an active assignment, with status
      `on-time` and a zero speed or heading left out. */
  function OnPosition(t: Tracking, assignment: Option<Assignment>, lat: real, lng: real,
                      speed: Option<real>, heading: Option<real>): (r: (Tracking, Option<Realtime.Frame>))
    ensures r.0 == t.(position := Some((lat, lng)))
    ensures r.1.Some? <==> assignment.Some?
    ensures r.1.Some? ==> r.1.value.Report? && r.1.value.assignmentId == Some(assignment.value.id)
    ensures r.1.Some? ==> r.1.value.Report? && r.1.value.latitude == Some(lat) && r.1.value.longitude == Some(lng)
    ensures r.1.Some? ==> r.1.value.Report? && r.1.value.status == Some("on-time")
    ensures r.1.Some? ==> r.1.value.Report? && (r.1.value.speed.Some? <==> TruthyReal(speed)) && (r.1.value.heading.Some? <==> TruthyReal(heading))
  {
    var frame := if assignment.Some? then
      Some(Realtime.Report(Some(assignment.value.id), Some(lat), Some(lng), Some("on-time"),
                           if TruthyReal(speed) then speed else None,
                           if TruthyReal(heading) then heading else None))
    else None;
    (t.(position := Some((lat, lng))), frame)
  }

  /** Were the report delivered from a driver's authenticated socket, the server would store
      it twice, and the first copy would keep the page's `on-time` status. */
  lemma PageReportStoredTwice(s: Realtime.Server, conn: Realtime.ConnId, t: Tracking, a: Assignment,
                              lat: real, lng: real, speed: Option<real>, heading: Option<real>)
    requires conn in s.clients && s.clients[conn].role == Some(DRIVER)
    requires a.id in s.db.assignments && a.id != 0 && lat != 0.0 && lng != 0.0
    ensures var f := OnPosition(t, Some(a), lat, lng, speed, heading).1.value;
      var r := Realtime.HandleMessage(s, conn, f);
      && |r.server.db.locations| == |s.db.locations| + 2
      && r.server.db.locations[|s.db.locations|].status == "on-time"
      && r.server.db.locations[|s.db.locations|].assignmentId == a.id
  {
    var f := OnPosition(t, Some(a), lat, lng, speed, heading).1.value;
    Realtime.DriverReportStoredTwice(s, conn, f);
  }
}

=== FILE: realtime.dfy ===
/** The real-time server of server/websocket.ts. Each connection carries an identity
    (`userId`, `role`), a set of channel subscriptions and an open flag. Every incoming
    frame is handled by two handler blocks in turn, exactly as the source registers them;
    outgoing messages are collected as deliveries (recipients plus envelope) instead of
    being written to sockets. */
module Realtime {
  import opened Common
  import opened Schema
  import opened Storage

  /** The identity of one socket (the source keys its client map by the socket object). */
  type ConnId = int

  const WELCOME := "Connected to transit management system"
  const INVALID_FORMAT := "Invalid message format"

  datatype Client = Client(userId: Option<int>, role: Option<string>, subscriptions: set<string>, open: bool)

  /** A frame after `JSON.parse`. `Malformed` is a frame that does not parse or parses to
      `null` (reading `type` then throws); `Other` is any frame whose `type` neither block
      handles. Absent fields are `None`. */
  datatype Frame =
    | Malformed
    | Auth(userId: Option<int>, role: Option<string>)
    | Subscribe(channel: string)
    | Unsubscribe(channel: string)
    | Report(assignmentId: Option<int>, latitude: Option<real>, longitude: Option<real>,
             status: Option<string>, speed: Option<real>, heading: Option<real>)
    | Other

  /** The JSON messages the server sends. A route-channel broadcast carries the route id
      next to the location row. */
  datatype Envelope =
    | Welcome(message: string)
    | LocationBroadcast(update: LocationUpdate, routeId: Option<int>)
    | ErrorReply(message: string)

  /** One message written to the sockets in `to`; `channel` is the channel it was published
      on, or `None` for a direct or administrative send. */
  datatype Delivery = Delivery(to: set<ConnId>, channel: Option<string>, envelope: Envelope)

  datatype Server = Server(clients: map<ConnId, Client>, db: Db)

  /** The state after handling an event, with what was sent while handling it. */
  datatype Step = Step(server: Server, out: seq<Delivery>)

  // ---------------------------------------------------------------------------
  // Fan-out

  /** The sockets a channel publication reaches: open clients subscribed to the channel. */
  function ChannelAudience(clients: map<ConnId, Client>, channel: string): (r: set<ConnId>)
    ensures r <= clients.Keys
  {
    set c | c in clients && clients[c].open && channel in clients[c].subscriptions
  }

  /** The sockets an administrative broadcast reaches: every open client. */
  function BroadcastAudience(clients: map<ConnId, Client>): (r: set<ConnId>)
    ensures r <= clients.Keys
  {
    set c | c in clients && clients[c].open
  }

  /** `broadcastToChannel` */
  function BroadcastToChannel(clients: map<ConnId, Client>, channel: string, e: Envelope): (d: Delivery)
    ensures d.channel == Some(channel) && d.envelope == e
    ensures d.to <= BroadcastAudience(clients)
  {
    Delivery(ChannelAudience(clients, channel), Some(channel), e)
  }

  /** `broadcast` */
  function Broadcast(clients: map<ConnId, Client>, e: Envelope): (d: Delivery)
    ensures d.channel.None? && d.envelope == e
    ensures forall ch :: ChannelAudience(clients, ch) <= d.to
  {
    Delivery(BroadcastAudience(clients), None, e)
  }

  /** Only subscribers hear a channel, and a subscriber hears it exactly while its socket
      is open. */
  lemma ChannelAudienceIsSubscribers(clients: map<ConnId, Client>, channel: string, c: ConnId)
    requires c in clients
    ensures c in BroadcastToChannel(clients, channel, Welcome("")).to <==>
      clients[c].open && channel in clients[c].subscriptions
  {
  }

  // ---------------------------------------------------------------------------
  // Connection lifecycle

  /** A new connection: a client with no identity and no subscriptions is registered and
      greeted with the welcome message. */
  function Connect(s: Server, conn: ConnId): (r: Step)
    requires conn !in s.clients
    ensures r.server.clients.Keys == s.clients.Keys + {conn}
    ensures forall c :: c in s.clients ==> r.server.clients[c] == s.clients[c]
    ensures r.server.clients[conn].userId.None? && r.server.clients[conn].role.None?
    ensures r.server.clients[conn].subscriptions == {} && r.server.clients[conn].open
    ensures r.server.db == s.db
    ensures r.out == [Delivery({conn}, None, Welcome(WELCOME))]
  {
    Step(Server(s.clients[conn := Client(None, None, {}, true)], s.db),
         [Delivery({conn}, None, Welcome(WELCOME))])
  }

  /** A fresh connection hears no channel until it subscribes, but does hear broadcasts. */
  lemma NewClientHearsNoChannel(s: Server, conn: ConnId, channel: string)
    requires conn !in s.clients
    ensures conn !in ChannelAudience(Connect(s, conn).server.clients, channel)
    ensures conn in BroadcastAudience(Connect(s, conn).server.clients)
  {
  }

  /** `ws.on('error')`: the socket is terminated, so it stops receiving. */
  function OnError(s: Server, conn: ConnId): (r: Server)
    ensures r.clients.Keys == s.clients.Keys && r.db == s.db
    ensures conn in s.clients ==> !r.clients[conn].open
    ensures forall c :: c in s.clients && c != conn ==> r.clients[c] == s.clients[c]
  {
    if conn in s.clients then Server(s.clients[conn := s.clients[conn].(open := false)], s.db) else s
  }

  /** `ws.on('close')`: the client is forgotten. */
  function OnClose(s: Server, conn: ConnId): (r: Server)
    ensures r.clients.Keys == s.clients.Keys - {conn} && r.db == s.db
    ensures forall c :: c in r.clients ==> r.clients[c] == s.clients[c]
  {
    Server(s.clients - {conn}, s.db)
  }

  /** After an error or a close, nothing published reaches the socket. */
  lemma ClosedSocketHearsNothing(s: Server, conn: ConnId, channel: string)
    ensures conn !in ChannelAudience(OnError(s, conn).clients, channel)
    ensures conn !in BroadcastAudience(OnError(s, conn).clients)
    ensures conn !in ChannelAudience(OnClose(s, conn).clients, channel)
    ensures conn !in BroadcastAudience(OnClose(s, conn).clients)
  {
  }

  // ---------------------------------------------------------------------------
  // The two message handlers

  function Subscribed(s: Server, conn: ConnId, channel: string, add: bool): (r: Server)
    requires conn in s.clients
    ensures r.clients.Keys == s.clients.Keys && r.db == s.db
  {
    var c := s.clients[conn];
    var subs := if add then c.subscriptions + {channel} else c.subscriptions - {channel};
    Server(s.clients[conn := c.(subscriptions := subs)], s.db)
  }

  /** The first handler block: a `switch` on the frame type. Subscriptions are edited; a
      location report is stored only when its assignment id, latitude and longitude are all
      truthy, with status defaulting to `on-time`, and published on `assignment_<id>`. A
      failed insert is only logged. Nothing depends on who the sender is. */
  function FirstBlock(s: Server, conn: ConnId, f: Frame): (r: Step)
    requires conn in s.clients
    ensures r.server.clients.Keys == s.clients.Keys
    ensures forall c :: c in s.clients && c != conn ==> r.server.clients[c] == s.clients[c]
    ensures var a, b := s.clients[conn], r.server.clients[conn];
      a.userId == b.userId && a.role == b.role && a.open == b.open
    ensures r.server.db.assignments == s.db.assignments
    ensures f.Subscribe? ==>
      r.server.clients[conn].subscriptions == s.clients[conn].subscriptions + {f.channel}
    ensures f.Unsubscribe? ==>
      r.server.clients[conn].subscriptions == s.clients[conn].subscriptions - {f.channel}
    ensures !f.Subscribe? && !f.Unsubscribe? ==> r.server.clients == s.clients
    ensures |r.out| <= 1
    ensures |r.out| == 0 ==> r.server.db.locations == s.db.locations
    ensures (f.Report? && TruthyInt(f.assignmentId) && TruthyReal(f.latitude) && TruthyReal(f.longitude)
             && CreateLocationUpdate(s.db, FirstBlockLocation(f)).Some?) ==> |r.out| == 1
    ensures |r.out| == 1 ==>
      && f.Report? && TruthyInt(f.assignmentId) && TruthyReal(f.latitude) && TruthyReal(f.longitude)
      && r.out[0].channel == Some("assignment_" + IntToString(f.assignmentId.value))
      && r.out[0].to == ChannelAudience(r.server.clients, r.out[0].channel.value)
      && r.out[0].envelope.LocationBroadcast? && r.out[0].envelope.routeId.None?
      && r.server.db.locations == s.db.locations + [r.out[0].envelope.update]
      && r.out[0].envelope.update.status == OrText(f.status, "on-time")
  {
    match f
    case Subscribe(ch) => Step(Subscribed(s, conn, ch, true), [])
    case Unsubscribe(ch) => Step(Subscribed(s, conn, ch, false), [])
    case Report(aid, lat, lng, st, speed, heading) =>
      if TruthyInt(aid) && TruthyReal(lat) && TruthyReal(lng) then
        match CreateLocationUpdate(s.db, FirstBlockLocation(f))
        case None => Step(s, [])
        case Some((db', row)) =>
          Step(Server(s.clients, db'),
               [BroadcastToChannel(s.clients, "assignment_" + IntToString(aid.value), LocationBroadcast(row, None))])
      else Step(s, [])
    case _ => Step(s, [])
  }

  /** The insert the first block asks for: the frame's fields, with status `|| 'on-time'`. */
  function FirstBlockLocation(f: Frame): NewLocation
    requires f.Report?
  {
    NewLocation(f.assignmentId, f.latitude, f.longitude, Some(OrText(f.status, "on-time")), f.speed, f.heading)
  }

  /** The second handler block: an `if` chain on the frame type. `auth` sets the identity
      the frame claims; subscriptions are edited again; a location report from a client
      whose role is `driver` is stored with the frame's own status, published on
      `assignment:<id>` and, when the assignment exists, on `route:<routeId>`. A frame that
      does not parse, or an insert that throws, is answered with an error to the sender. */
  function SecondBlock(s: Server, conn: ConnId, f: Frame): (r: Step)
    requires conn in s.clients
    ensures r.server.clients.Keys == s.clients.Keys
    ensures forall c :: c in s.clients && c != conn ==> r.server.clients[c] == s.clients[c]
    ensures r.server.db.assignments == s.db.assignments
    ensures f.Auth? ==> r.server.clients[conn] == s.clients[conn].(userId := f.userId, role := f.role)
    ensures !f.Auth? ==> r.server.clients[conn].userId == s.clients[conn].userId && r.server.clients[conn].role == s.clients[conn].role
    ensures r.server.clients[conn].open == s.clients[conn].open
    ensures |r.server.db.locations| - |s.db.locations| in {0, 1}
    ensures s.db.locations <= r.server.db.locations
    ensures |r.server.db.locations| > |s.db.locations| <==>
      f.Report? && s.clients[conn].role == Some(DRIVER) && CreateLocationUpdate(s.db, ToNewLocation(f)).Some?
    ensures r.out == [Delivery({conn}, None, ErrorReply(INVALID_FORMAT))] <==>
      f.Malformed? || (f.Report? && s.clients[conn].role == Some(DRIVER) && CreateLocationUpdate(s.db, ToNewLocation(f)).None?)
    ensures forall k :: 0 <= k < |r.out| && r.out[k].envelope.ErrorReply? ==>
      r.out == [Delivery({conn}, None, ErrorReply(INVALID_FORMAT))]
    ensures f.Subscribe? ==>
      r.server.clients[conn].subscriptions == s.clients[conn].subscriptions + {f.channel}
    ensures f.Unsubscribe? ==>
      r.server.clients[conn].subscriptions == s.clients[conn].subscriptions - {f.channel}
    ensures !f.Subscribe? && !f.Unsubscribe? ==>
      r.server.clients[conn].subscriptions == s.clients[conn].subscriptions
    ensures |r.server.db.locations| == |s.db.locations| ==>
      r.out == [] || r.out == [Delivery({conn}, None, ErrorReply(INVALID_FORMAT))]
    ensures |r.server.db.locations| > |s.db.locations| ==>
      && f.Report? && f.assignmentId.Some?
      && |r.out| == 2
      && r.out[0].channel == Some("assignment:" + IntToString(f.assignmentId.value))
      && r.out[0].envelope == LocationBroadcast(r.server.db.locations[|s.db.locations|], None)
      && (|r.out| == 2 <==> GetAssignment(s.db, f.assignmentId).Some?)
      && r.out[1].channel == Some("route:" + IntToString(GetAssignment(s.db, f.assignmentId).value.routeId))
      && r.out[1].envelope == LocationBroadcast(r.server.db.locations[|s.db.locations|],
                                                Some(GetAssignment(s.db, f.assignmentId).value.routeId))
    ensures forall k :: 0 <= k < |r.out| && r.out[k].channel.Some? ==>
      r.out[k].to == ChannelAudience(r.server.clients, r.out[k].channel.value)
  {
    match f
    case Malformed => Step(s, [Delivery({conn}, None, ErrorReply(INVALID_FORMAT))])
    case Auth(u, role) => Step(Server(s.clients[conn := s.clients[conn].(userId := u, role := role)], s.db), [])
    case Subscribe(ch) => Step(Subscribed(s, conn, ch, true), [])
    case Unsubscribe(ch) => Step(Subscribed(s, conn, ch, false), [])
    case Report(aid, _, _, _, _, _) =>
      if s.clients[conn].role == Some(DRIVER) then
        match CreateLocationUpdate(s.db, ToNewLocation(f))
        case None => Step(s, [Delivery({conn}, None, ErrorReply(INVALID_FORMAT))])
        case Some((db', row)) =>
          var first := BroadcastToChannel(s.clients, "assignment:" + IdText(aid), LocationBroadcast(row, None));
          match GetAssignment(db', aid)
          case None => Step(Server(s.clients, db'), [first])
          case Some(a) =>
            Step(Server(s.clients, db'),
                 [first, BroadcastToChannel(s.clients, "route:" + IntToString(a.routeId), LocationBroadcast(row, Some(a.routeId)))])
      else Step(s, [])
    case Other => Step(s, [])
  }

  /** The insert the second block asks for: the frame's fields as they are. */
  function ToNewLocation(f: Frame): NewLocation
    requires f.Report?
  {
    NewLocation(f.assignmentId, f.latitude, f.longitude, f.status, f.speed, f.heading)
  }

  /** `ws.on('message')`: the first block, then the second block on the state it left. */
  function HandleMessage(s: Server, conn: ConnId, f: Frame): (r: Step)
    requires conn in s.clients
    ensures r.server.clients.Keys == s.clients.Keys
    ensures forall c :: c in s.clients && c != conn ==> r.server.clients[c] == s.clients[c]
    ensures r.server.clients[conn].open == s.clients[conn].open
    ensures r.server.db.assignments == s.db.assignments
    ensures s.db.locations <= r.server.db.locations && |r.server.db.locations| <= |s.db.locations| + 2
    ensures forall k :: 0 <= k < |r.out| && r.out[k].channel.Some? ==>
      r.out[k].to == ChannelAudience(r.server.clients, r.out[k].channel.value)
  {
    var a := FirstBlock(s, conn, f);
    var b := SecondBlock(a.server, conn, f);
    Step(b.server, a.out + b.out)
  }

  // ---------------------------------------------------------------------------
  // Properties of message handling

  /** Subscribing puts the client in the channel's audience (while its socket is open);
      unsubscribing takes it out. Both blocks apply the edit, which is harmless because set
      insertion and removal are idempotent. */
  lemma SubscribeControlsAudience(s: Server, conn: ConnId, channel: string)
    requires conn in s.clients && s.clients[conn].open
    ensures conn in ChannelAudience(HandleMessage(s, conn, Subscribe(channel)).server.clients, channel)
    ensures conn !in ChannelAudience(HandleMessage(s, conn, Unsubscribe(channel)).server.clients, channel)
    ensures HandleMessage(s, conn, Subscribe(channel)).server.clients[conn].subscriptions ==
      s.clients[conn].subscriptions + {channel}
    ensures HandleMessage(s, conn, Unsubscribe(channel)).server.clients[conn].subscriptions ==
      s.clients[conn].subscriptions - {channel}
    ensures HandleMessage(s, conn, Subscribe(channel)).out == []
  {
  }

  /** Handling the same subscription frame twice leaves the same state as handling it once. */
  lemma SubscribeIdempotent(s: Server, conn: ConnId, channel: string)
    requires conn in s.clients
    ensures var once := HandleMessage(s, conn, Subscribe(channel)).server;
      HandleMessage(once, conn, Subscribe(channel)).server == once
  {
    var once := HandleMessage(s, conn, Subscribe(channel)).server;
    assert once.clients[conn := once.clients[conn]] == once.clients;
  }

  /** `auth` frames are taken at their word: any client may claim any identity, including
      the `driver` role that unlocks the second block's report handling. */
  lemma AuthTrustsTheFrame(s: Server, conn: ConnId, userId: Option<int>, role: Option<string>)
    requires conn in s.clients
    ensures var c := HandleMessage(s, conn, Auth(userId, role)).server.clients[conn];
      c.userId == userId && c.role == role
    ensures HandleMessage(s, conn, Auth(userId, role)).out == []
  {
  }

  /** A frame that does not parse changes nothing and is answered with one error, sent
      only to its sender. */
  lemma MalformedOnlyReplies(s: Server, conn: ConnId)
    requires conn in s.clients
    ensures HandleMessage(s, conn, Malformed) == Step(s, [Delivery({conn}, None, ErrorReply(INVALID_FORMAT))])
  {
  }

  /** The two blocks publish one driver report under two spellings: the first block on
      `assignment_<id>`, the second on `assignment:<id>`. An open client subscribed to only
      the second spelling hears the second block's copy and not the first's. */
  lemma ChannelSpellingsDiffer(s: Server, conn: ConnId, f: Frame, listener: ConnId)
    requires conn in s.clients && s.clients[conn].role == Some(DRIVER)
    requires f.Report? && TruthyInt(f.assignmentId) && TruthyReal(f.latitude) && TruthyReal(f.longitude)
    requires f.assignmentId.value in s.db.assignments
    requires listener in s.clients && listener != conn && s.clients[listener].open
    requires "assignment:" + IntToString(f.assignmentId.value) in s.clients[listener].subscriptions
    requires "assignment_" + IntToString(f.assignmentId.value) !in s.clients[listener].subscriptions
    ensures var r := HandleMessage(s, conn, f);
      && |r.out| == 3
      && r.out[0].channel == Some("assignment_" + IntToString(f.assignmentId.value))
      && r.out[1].channel == Some("assignment:" + IntToString(f.assignmentId.value))
      && r.out[0].channel != r.out[1].channel
      && listener !in r.out[0].to && listener in r.out[1].to
  {
    var id := IntToString(f.assignmentId.value);
    assert ("assignment_" + id)[10] == '_';
    assert ("assignment:" + id)[10] == ':';
  }

  /** A report from a client that never authenticated is still stored and published by the
      first block when its fields are truthy and the assignment exists; the second block
      ignores it without an error. */
  lemma UnauthenticatedReportIsStored(s: Server, conn: ConnId, f: Frame)
    requires conn in s.clients && s.clients[conn].role.None?
    requires f.Report? && TruthyInt(f.assignmentId) && TruthyReal(f.latitude) && TruthyReal(f.longitude)
    requires f.assignmentId.value in s.db.assignments
    ensures var r := HandleMessage(s, conn, f);
      && |r.server.db.locations| == |s.db.locations| + 1
      && |r.out| == 1
      && r.out[0].channel == Some("assignment_" + IntToString(f.assignmentId.value))
      && r.out[0].envelope.update == r.server.db.locations[|s.db.locations|]
  {
  }

  /** A truthy report from a driver for an existing assignment is stored twice: once by each
      block, with the first block's default status `on-time` and the store's default
      `active`. No check relates the driver's user id to the assignment's driver. */
  lemma DriverReportStoredTwice(s: Server, conn: ConnId, f: Frame)
    requires conn in s.clients && s.clients[conn].role == Some(DRIVER)
    requires f.Report? && TruthyInt(f.assignmentId) && TruthyReal(f.latitude) && TruthyReal(f.longitude)
    requires f.assignmentId.value in s.db.assignments
    ensures var r := HandleMessage(s, conn, f);
      && |r.server.db.locations| == |s.db.locations| + 2
      && r.server.db.locations[|s.db.locations|].status == OrText(f.status, "on-time")
      && r.server.db.locations[|s.db.locations| + 1].status == OrText(f.status, "active")
      && r.server.db.locations[|s.db.locations|].assignmentId == f.assignmentId.value
      && r.server.db.locations[|s.db.locations| + 1].assignmentId == f.assignmentId.value
      && |r.out| == 3
      && r.out[1].channel == Some("assignment:" + IntToString(f.assignmentId.value))
      && r.out[2].channel == Some("route:" + IntToString(s.db.assignments[f.assignmentId.value].routeId))
  {
  }

  /** A coordinate of exactly zero is falsy: the first block drops the report, while the
      second block still stores it for a driver. */
  lemma ZeroCoordinateSkipsFirstBlock(s: Server, conn: ConnId, f: Frame)
    requires conn in s.clients
    requires f.Report? && f.latitude == Some(0.0)
    ensures FirstBlock(s, conn, f) == Step(s, [])
    ensures (s.clients[conn].role == Some(DRIVER) && f.longitude.Some? && f.assignmentId.Some? &&
             f.assignmentId.value in s.db.assignments) ==>
      |HandleMessage(s, conn, f).server.db.locations| == |s.db.locations| + 1
  {
  }
}

=== FILE: requestlog.dfy ===
/** The request logger and the error handler of server/index.ts. The clock and
    `JSON.stringify` are inputs: the duration arrives as a number and the captured body as
    its JSON text. */
module RequestLog {
  import opened Common

  const MAX_LINE := 80

  predicate StartsWith(s: string, prefix: string) {
    |prefix| <= |s| && s[..|prefix|] == prefix
  }

  /** A log line longer than 80 characters keeps its first 79 and gains an ellipsis. */
  function Truncate(line: string): (r: string)
    ensures |r| <= MAX_LINE
    ensures |line| <= MAX_LINE ==> r == line
    ensures |line| > MAX_LINE ==> |r| == MAX_LINE && r[..MAX_LINE - 1] == line[..MAX_LINE - 1] && r[MAX_LINE - 1] == '…'
  {
    if |line| > MAX_LINE then line[..MAX_LINE - 1] + "…" else line
  }

  /** Truncating twice is truncating once: a truncated line is already short enough. */
  lemma TruncateIdempotent(line: string)
    ensures Truncate(Truncate(line)) == Truncate(line)
  {
  }

  /** `METHOD path status in Nms`, with ` :: <json>` when a body was captured, truncated;
      `None` for paths outside `/api`, which are not logged. */
  function LogLine(verb: string, path: string, status: int, duration: int, captured: Option<string>): (r: Option<string>)
    ensures r.Some? <==> StartsWith(path, "/api")
    ensures r.Some? ==> |r.value| <= MAX_LINE
    ensures r.Some? && |verb + " " + path + " "| < MAX_LINE ==> StartsWith(r.value, verb + " " + path + " ")
    ensures r.Some? && captured.Some? && |r.value| < MAX_LINE ==> EndsWith(r.value, " :: " + captured.value)
  {
    if StartsWith(path, "/api") then
      var head := verb + " " + path + " ";
      var line := head + IntToString(status) + " in " + IntToString(duration) + "ms";
      var full := if captured.Some? then line + " :: " + captured.value else line;
      assert full[..|head|] == head;
      assert captured.Some? ==> full[|full| - |" :: " + captured.value|..] == " :: " + captured.value;
      Some(Truncate(full))
    else None
  }

  predicate EndsWith(s: string, suffix: string) {
    |suffix| <= |s| && s[|s| - |suffix|..] == suffix
  }

  /** A short request without a captured body is logged in full, status and duration
      included. */
  lemma ShortLineKept(verb: string, path: string, status: int, duration: int)
    requires StartsWith(path, "/api")
    requires |verb + " " + path + " " + IntToString(status) + " in " + IntToString(duration) + "ms"| <= MAX_LINE
    ensures LogLine(verb, path, status, duration, None) ==
      Some(verb + " " + path + " " + IntToString(status) + " in " + IntToString(duration) + "ms")
  {
  }

  // ---------------------------------------------------------------------------
  // Error handler

  /** The fields of a thrown error the handler reads; `None` is absent. */
  datatype Failure = Failure(status: Option<int>, statusCode: Option<int>, message: Option<string>)

  datatype ErrorBody = ErrorBody(status: int, message: string, path: string)

  /** `err.status || err.statusCode || 500` */
  function ErrorStatus(e: Failure): (st: int)
    ensures st != 0
    ensures TruthyInt(e.status) ==> st == e.status.value
    ensures !TruthyInt(e.status) && TruthyInt(e.statusCode) ==> st == e.statusCode.value
    ensures !TruthyInt(e.status) && !TruthyInt(e.statusCode) ==> st == 500
  {
    if TruthyInt(e.status) then e.status.value
    else if TruthyInt(e.statusCode) then e.statusCode.value
    else 500
  }

  /** The error handler sends nothing once headers are out; otherwise it answers with the
      fallback status, the error's message (or a generic one) and the request path. */
  function HandleError(e: Failure, headersSent: bool, path: string): (r: Option<ErrorBody>)
    ensures r.None? <==> headersSent
    ensures r.Some? ==> r.value.status == ErrorStatus(e) && r.value.path == path && r.value.message != ""
    ensures r.Some? && TruthyText(e.message) ==> r.value.message == e.message.value
  {
    if headersSent then None
    else Some(ErrorBody(ErrorStatus(e), OrText(e.message, "Internal Server Error"), path))
  }

  /** A status of 0 is falsy and never reaches the client: the next candidate is used. */
  lemma ZeroStatusFallsBack(code: Option<int>)
    ensures ErrorStatus(Failure(Some(0), code, None)) == ErrorStatus(Failure(None, code, None))
  {
  }
}

=== FILE: route_form.dfy ===
/** The route editor of client/src/components/admin/route-creator.tsx: drawing waypoints on
    the map, the checks made on submit, the request sent, and how the form is loaded for
    editing and cleared. Number formatting and `parseFloat` are parameters (`show`,
    `readFloat`); alerts and toasts become the refusal reason. */
module RouteForm {
  import opened Common
  import opened Schema

  type Coord = (real, real)

  datatype Form = Form(
    name: string,
    description: string,
    startLocation: string,
    endLocation: string,
    frequency: string,
    coordinates: seq<Coord>,
    drawing: bool,
    vehicle: string,
    dialogOpen: bool)

  /** `resetForm`: every text empty except the frequency, which returns to `15`; no points;
      drawing off and the dialog closed. */
  function ResetForm(): (f: Form)
    ensures f.frequency == "15" && f.coordinates == [] && !f.drawing && !f.dialogOpen
    ensures f.name == "" && f.description == "" && f.startLocation == "" && f.endLocation == "" && f.vehicle == ""
  {
    Form("", "", "", "", "15", [], false, "", false)
  }

  /** `handleMapClick`: while drawing, the clicked point is appended; otherwise nothing
      changes. */
  function MapClick(f: Form, lat: real, lng: real): (r: Form)
    ensures f.drawing ==> r.coordinates == f.coordinates + [(lat, lng)]
    ensures !f.drawing ==> r == f
    ensures r == f.(coordinates := r.coordinates)
  {
    if !f.drawing then f else f.(coordinates := f.coordinates + [(lat, lng)])
  }

  /** Clicks made while drawing add their points in order. */
  lemma {:induction false} ClicksWhileDrawing(f: Form, points: seq<Coord>)
    requires f.drawing
    ensures Clicks(f, points).coordinates == f.coordinates + points
    ensures Clicks(f, points) == f.(coordinates := f.coordinates + points)
    decreases |points|
  {
    if |points| > 0 {
      var last := points[|points| - 1];
      ClicksWhileDrawing(f, points[..|points| - 1]);
      assert f.coordinates + points[..|points| - 1] + [last] == f.coordinates + points;
    }
  }

  /** Clicks made while not drawing change nothing. */
  lemma {:induction false} ClicksWhileNotDrawing(f: Form, points: seq<Coord>)
    requires !f.drawing
    ensures Clicks(f, points) == f
    decreases |points|
  {
    if |points| > 0 {
      ClicksWhileNotDrawing(f, points[..|points| - 1]);
    }
  }

  /** A sequence of map clicks, oldest first. */
  function Clicks(f: Form, points: seq<Coord>): Form
    decreases |points|
  {
    if |points| == 0 then f
    else var p := points[|points| - 1]; MapClick(Clicks(f, points[..|points| - 1]), p.0, p.1)
  }

  // ---------------------------------------------------------------------------
  // Submit

  datatype Refusal = NoWaypoints | NoVehicle | MissingFields | TooFewPoints

  /** The JSON body of the create or update request. `None` is `NaN`. */
  datatype Payload = Payload(
    name: string,
    description: string,
    startLocation: string,
    endLocation: string,
    frequency: Option<int>,
    waypoints: seq<string>,
    status: string,
    vehicleId: Option<int>)

  datatype Request = Refused(reason: Refusal) | Update(id: int, body: Payload) | Create(body: Payload)

  /** A point as stored: `"<lat>,<lng>"`. */
  function WaypointText(c: Coord, show: real -> string): string {
    show(c.0) + "," + show(c.1)
  }

  function Waypoints(cs: seq<Coord>, show: real -> string): (r: seq<string>)
    ensures |r| == |cs|
    ensures forall i :: 0 <= i < |cs| ==> r[i] == WaypointText(cs[i], show)
  {
    seq(|cs|, i requires 0 <= i < |cs| => WaypointText(cs[i], show))
  }

  /** `handleSubmit`: no points, then no vehicle, then a missing name, start, end or
      frequency, then fewer than two points refuse the submit, in that order. Otherwise the
      payload goes to the update request when a route is being edited and to the create
      request otherwise. */
  function Submit(f: Form, editing: Option<Route>, show: real -> string): (r: Request)
    ensures r == Refused(NoWaypoints) <==> |f.coordinates| == 0
    ensures r == Refused(NoVehicle) <==> |f.coordinates| > 0 && f.vehicle == ""
    ensures r == Refused(MissingFields) <==> (|f.coordinates| > 0 && f.vehicle != "" &&
      (f.name == "" || f.startLocation == "" || f.endLocation == "" || f.frequency == ""))
    ensures r == Refused(TooFewPoints) <==> (|f.coordinates| == 1 && f.vehicle != "" &&
      f.name != "" && f.startLocation != "" && f.endLocation != "" && f.frequency != "")
    ensures r.Update? <==> !r.Refused? && editing.Some?
    ensures r.Update? ==> r.id == editing.value.id
    ensures !r.Refused? ==> |f.coordinates| >= 2 && r.body.status == "active"
    ensures !r.Refused? ==> r.body.waypoints == Waypoints(f.coordinates, show)
    ensures !r.Refused? ==> r.body.frequency == ParseInt(f.frequency) && r.body.vehicleId == ParseInt(f.vehicle)
    ensures !r.Refused? ==> r.body.name == f.name && r.body.description == f.description
    ensures !r.Refused? ==> r.body.startLocation == f.startLocation && r.body.endLocation == f.endLocation
  {
    if |f.coordinates| == 0 then Refused(NoWaypoints)
    else if f.vehicle == "" then Refused(NoVehicle)
    else if f.name == "" || f.startLocation == "" || f.endLocation == "" || f.frequency == "" then Refused(MissingFields)
    else if |f.coordinates| < 2 then Refused(TooFewPoints)
    else
      var body := Payload(f.name, f.description, f.startLocation, f.endLocation, ParseInt(f.frequency),
                          Waypoints(f.coordinates, show), "active",
                          if f.vehicle != "" then ParseInt(f.vehicle) else None);
      if editing.Some? then Update(editing.value.id, body) else Create(body)
  }

  // ---------------------------------------------------------------------------
  // Loading a route for editing

  /** `s.split(',')`: the pieces between commas; there is always at least one. */
  function SplitComma(s: string): (r: seq<string>)
    ensures |r| >= 1
    decreases |s|
  {
    if |s| == 0 then [""]
    else
      var rest := SplitComma(s[1..]);
      if s[0] == ',' then [""] + rest else [[s[0]] + rest[0]] + rest[1..]
  }

  /** Piece `i` of the split, or the text of `undefined` when there is no such piece, which
      is what `parseFloat` then reads. */
  function Piece(s: string, i: nat): string {
    var parts := SplitComma(s);
    if i < |parts| then parts[i] else "undefined"
  }

  /** Splitting text that holds no comma gives the text back. */
  lemma {:induction false} SplitCommaFree(a: string)
    requires ',' !in a
    ensures SplitComma(a) == [a]
    decreases |a|
  {
    if |a| > 0 {
      SplitCommaFree(a[1..]);
      assert [a[0]] + a[1..] == a;
    }
  }

  /** Splitting `a,b` with comma-free `a` gives `a` and then the pieces of `b`. */
  lemma {:induction false} SplitCommaJoin(a: string, b: string)
    requires ',' !in a
    ensures SplitComma(a + "," + b) == [a] + SplitComma(b)
    decreases |a|
  {
    if |a| == 0 {
      assert a + "," + b == [','] + b;
      assert (a + "," + b)[1..] == b;
    } else {
      SplitCommaJoin(a[1..], b);
      assert (a + "," + b)[1..] == a[1..] + "," + b;
      assert [a[0]] + a[1..] == a;
    }
  }

  /** The load of one stored waypoint: the two first pieces, each read as a number. */
  function LoadWaypoint(wp: string, readFloat: string -> real): Coord {
    (readFloat(Piece(wp, 0)), readFloat(Piece(wp, 1)))
  }

  /** The edit effect: the dialog opens with the route's fields, the description defaulted
      to empty text, the frequency as text, and the stored waypoints read back into points
      (kept as they were when the route has none). A stored route carries no vehicle, so the
      vehicle choice is cleared. */
  function LoadForEdit(f: Form, route: Route, readFloat: string -> real): (r: Form)
    ensures r.dialogOpen && r.vehicle == "" && r.drawing == f.drawing
    ensures r.name == route.name && r.startLocation == route.startLocation && r.endLocation == route.endLocation
    ensures r.description == OrText(route.description, "")
    ensures ParseInt(r.frequency) == Some(route.frequency)
    ensures route.waypoints.None? ==> r.coordinates == f.coordinates
    ensures route.waypoints.Some? ==> |r.coordinates| == |route.waypoints.value|
    ensures route.waypoints.Some? ==> forall i :: 0 <= i < |r.coordinates| ==>
      r.coordinates[i] == LoadWaypoint(route.waypoints.value[i], readFloat)
  {
    ParseIntOfIntToString(route.frequency);
    var coords := match route.waypoints
      case None => f.coordinates
      case Some(wps) => seq(|wps|, i requires 0 <= i < |wps| => LoadWaypoint(wps[i], readFloat));
    Form(route.name, OrText(route.description, ""), route.startLocation, route.endLocation,
         IntToString(route.frequency), coords, f.drawing, "", true)
  }

  /** One stored waypoint reads back as the point it was written from, provided number
      text never holds a comma and reads back as the number it shows. */
  lemma WaypointTextRoundTrip(c: Coord, show: real -> string, readFloat: string -> real)
    requires ',' !in show(c.0) && readFloat(show(c.0)) == c.0
    requires ',' !in show(c.1) && readFloat(show(c.1)) == c.1
    ensures LoadWaypoint(WaypointText(c, show), readFloat) == c
  {
    SplitCommaJoin(show(c.0), show(c.1));
    SplitCommaFree(show(c.1));
  }

  /** Waypoints written by the form load back as the same points. */
  lemma WaypointRoundTrip(cs: seq<Coord>, f: Form, route: Route, show: real -> string, readFloat: string -> real)
    requires forall i :: 0 <= i < |cs| ==> ',' !in show(cs[i].0) && readFloat(show(cs[i].0)) == cs[i].0
    requires forall i :: 0 <= i < |cs| ==> ',' !in show(cs[i].1) && readFloat(show(cs[i].1)) == cs[i].1
    requires route.waypoints == Some(Waypoints(cs, show))
    ensures LoadForEdit(f, route, readFloat).coordinates == cs
  {
    var r := LoadForEdit(f, route, readFloat);
    var wps := Waypoints(cs, show);
    assert |r.coordinates| == |wps| == |cs|;
    forall i | 0 <= i < |cs|
      ensures r.coordinates[i] == cs[i]
    {
      WaypointTextRoundTrip(cs[i], show, readFloat);
      assert r.coordinates[i] == LoadWaypoint(wps[i], readFloat);
    }
  }

  /** Saving an edit loaded from a stored route is refused until a vehicle is picked again,
      because the load clears the vehicle choice. */
  lemma EditNeedsVehicleAgain(f: Form, route: Route, readFloat: string -> real, show: real -> string)
    requires route.waypoints.Some? && |route.waypoints.value| > 0
    ensures Submit(LoadForEdit(f, route, readFloat), Some(route), show) == Refused(NoVehicle)
  {
  }

  /** A cleared form refuses a submit for lack of points. */
  lemma ResetFormRefused(editing: Option<Route>, show: real -> string)
    ensures Submit(ResetForm(), editing, show) == Refused(NoWaypoints)
  {
  }
}

=== FILE: schema.dfy ===
/** The stored entities of the fleet application, as the storage layer maps database rows
    to records (shared/schema.ts, server/storage.ts). Creation timestamps are left out;
    other timestamps are opaque text. `None` is a SQL NULL. */
module Schema {
  import opened Common

  const ADMIN := "admin"
  const USER := "user"
  const DRIVER := "driver"

  datatype User = User(
    id: int,
    username: string,
    email: string,
    password: string,
    role: string,
    fullName: Option<string>,
    profileImage: Option<string>)

  datatype Vehicle = Vehicle(
    id: int,
    vehicleNumber: string,
    vehicleType: string,
    capacity: int,
    status: string,
    fuelStatus: int,
    lastMaintenance: Option<string>,
    nextMaintenance: Option<string>)

  datatype Route = Route(
    id: int,
    name: string,
    description: Option<string>,
    startLocation: string,
    endLocation: string,
    waypoints: Option<seq<string>>,
    frequency: int,
    status: string,
    createdBy: Option<int>)

  datatype RouteStop = RouteStop(
    id: int,
    routeId: int,
    name: string,
    location: string,
    arrivalTime: Option<string>,
    departureTime: Option<string>,
    order: int)

  datatype Assignment = Assignment(
    id: int,
    driverId: int,
    vehicleId: int,
    routeId: int,
    startTime: string,
    endTime: Option<string>,
    status: string)

  datatype DriverRating = DriverRating(
    id: int,
    driverId: int,
    userId: int,
    rating: int,
    comment: Option<string>,
    assignmentId: Option<int>)

  /** A persisted vehicle position; the database assigns `id`. */
  datatype LocationUpdate = LocationUpdate(
    id: int,
    assignmentId: int,
    latitude: real,
    longitude: real,
    status: string,
    speed: Option<real>,
    heading: Option<real>)
}

=== FILE: storage.dfy ===
/** The storage layer of server/storage.ts: the dynamic `UPDATE ... SET` builders with
    their running parameter counter, the defaults the `create*` methods fill in, and the
    result conventions of update and delete. The database itself is abstract: a query's
    outcome is an input, except for location inserts, which the real-time server needs and
    which are modelled on a small in-memory table (`Db`). */
module Storage {
  import opened Common
  import opened Schema

  /** A query parameter as handed to the database driver. */
  datatype SqlValue = Text(text: string) | Int(number: int) | Real(decimal: real) | TextList(items: seq<string>) | Null

  // ---------------------------------------------------------------------------
  // Update builders

  /** One guarded `SET` entry of an update builder: `value` is `None` when the source's
      guard skips the field. */
  datatype Candidate = Candidate(column: string, value: Option<SqlValue>)

  /** `if (data.f) { ... }`: a text field is written only when it is non-empty. */
  function IfTruthy(column: string, field: Option<string>): Candidate {
    Candidate(column, if TruthyText(field) then Some(Text(field.value)) else None)
  }

  /** `if (data.f !== undefined) { ... }`: a field is written whenever it is present,
      including `null`, `0` and `""`. */
  function IfDefined(column: string, field: Option<SqlValue>): Candidate {
    Candidate(column, field)
  }

  function Columns(cs: seq<Candidate>): seq<string> {
    seq(|cs|, i requires 0 <= i < |cs| => cs[i].column)
  }

  /** The entries whose guard passes, in the order the builder tests them. */
  function Included(cs: seq<Candidate>): (r: seq<Candidate>)
    ensures |r| <= |cs|
    ensures forall k :: 0 <= k < |r| ==> r[k].value.Some?
    ensures |r| == 0 <==> forall i :: 0 <= i < |cs| ==> cs[i].value.None?
  {
    if |cs| == 0 then []
    else (if cs[0].value.Some? then [cs[0]] else []) + Included(cs[1..])
  }

  lemma {:induction false} IncludedAppend(a: seq<Candidate>, b: seq<Candidate>)
    ensures Included(a + b) == Included(a) + Included(b)
    decreases |a|
  {
    if |a| == 0 {
      assert a + b == b;
    } else {
      assert (a + b)[1..] == a[1..] + b;
      IncludedAppend(a[1..], b);
    }
  }

  /** The written columns keep the builder's fixed field order. */
  lemma {:induction false} IncludedKeepsOrder(cs: seq<Candidate>)
    ensures SubsequenceOf(Columns(Included(cs)), Columns(cs))
    decreases |cs|
  {
    if |cs| > 0 {
      IncludedKeepsOrder(cs[1..]);
      assert Columns(cs)[1..] == Columns(cs[1..]);
      if cs[0].value.Some? {
        assert Included(cs) == [cs[0]] + Included(cs[1..]);
        assert Columns(Included(cs))[1..] == Columns(Included(cs[1..]));
      } else {
        assert Included(cs) == Included(cs[1..]);
      }
    }
  }

  /** One more builder step: the next entry is appended exactly when its guard passes. */
  lemma IncludedStep(cs: seq<Candidate>, i: int)
    requires 0 <= i < |cs|
    ensures Included(cs[..i + 1]) == Included(cs[..i]) + (if cs[i].value.Some? then [cs[i]] else [])
  {
    assert cs[..i + 1] == cs[..i] + [cs[i]];
    IncludedAppend(cs[..i], [cs[i]]);
    assert Included([cs[i]]) == (if cs[i].value.Some? then [cs[i]] else []) + Included([]);
  }

  /** The positional parameter `$k`. */
  function Placeholder(k: int): string {
    "$" + IntToString(k)
  }

  /** Distinct positions give distinct placeholders, so each `$k` names exactly one value. */
  lemma PlaceholdersDistinct(j: int, k: int)
    requires j != k
    ensures Placeholder(j) != Placeholder(k)
  {
    if Placeholder(j) == Placeholder(k) {
      assert Placeholder(j)[1..] == IntToString(j);
      assert Placeholder(k)[1..] == IntToString(k);
      ParseIntOfIntToString(j);
      ParseIntOfIntToString(k);
    }
  }

  function SetClause(column: string, k: int): string {
    column + " = " + Placeholder(k)
  }

  /** The `SET` entries for the picked candidates, numbered from `$1`. */
  function ClausesOf(picked: seq<Candidate>): seq<string> {
    seq(|picked|, k requires 0 <= k < |picked| => SetClause(picked[k].column, k + 1))
  }

  function ValuesOf(picked: seq<Candidate>): seq<SqlValue>
    requires forall k :: 0 <= k < |picked| ==> picked[k].value.Some?
  {
    seq(|picked|, k requires 0 <= k < |picked| => picked[k].value.value)
  }

  /** The builder loop: each qualifying field appends `column = $paramCount` and its value,
      then bumps `paramCount`. */
  method BuildSetClauses(cs: seq<Candidate>) returns (clauses: seq<string>, values: seq<SqlValue>, paramCount: int)
    ensures |clauses| == |values| == |Included(cs)|
    ensures paramCount == |values| + 1
    ensures forall k :: 0 <= k < |clauses| ==> clauses[k] == SetClause(Included(cs)[k].column, k + 1)
    ensures forall k :: 0 <= k < |values| ==> values[k] == Included(cs)[k].value.value
  {
    clauses, values, paramCount := [], [], 1;
    ghost var picked: seq<Candidate> := [];
    var i := 0;
    while i < |cs|
      invariant 0 <= i <= |cs|
      invariant picked == Included(cs[..i])
      invariant clauses == ClausesOf(picked)
      invariant values == ValuesOf(picked)
      invariant paramCount == |picked| + 1
    {
      IncludedStep(cs, i);
      if cs[i].value.Some? {
        clauses := clauses + [SetClause(cs[i].column, paramCount)];
        values := values + [cs[i].value.value];
        paramCount := paramCount + 1;
        picked := picked + [cs[i]];
      }
      i := i + 1;
    }
    assert cs[..|cs|] == cs;
  }

  /** `UPDATE <table> SET <clauses> WHERE id = $<idPlaceholder> RETURNING *` with its
      parameter list. */
  datatype UpdateQuery = UpdateQuery(
    table: string,
    columns: seq<string>,
    clauses: seq<string>,
    params: seq<SqlValue>,
    idPlaceholder: int)

  /** An update either re-reads the current row (nothing to set) or runs a query. */
  datatype UpdatePlan = ReturnCurrent | RunUpdate(query: UpdateQuery)

  function Join(parts: seq<string>, sep: string): string {
    if |parts| == 0 then ""
    else if |parts| == 1 then parts[0]
    else parts[0] + sep + Join(parts[1..], sep)
  }

  function SqlText(q: UpdateQuery): string {
    "UPDATE " + q.table + " SET " + Join(q.clauses, ", ") + " WHERE id = " + Placeholder(q.idPlaceholder) + " RETURNING *"
  }

  /** The shared shape of every `update*` method: build the clauses; with none, return the
      current row; otherwise push the id last and bind it to the final placeholder. */
  method PlanUpdate(table: string, cs: seq<Candidate>, id: int) returns (plan: UpdatePlan)
    ensures plan.ReturnCurrent? <==> forall i :: 0 <= i < |cs| ==> cs[i].value.None?
    ensures plan.RunUpdate? ==>
      var q := plan.query;
      && q.table == table
      && q.columns == Columns(Included(cs))
      && SubsequenceOf(q.columns, Columns(cs))
      && |q.clauses| == |q.columns| == |q.params| - 1 >= 1
      && (forall k :: 0 <= k < |q.clauses| ==> q.clauses[k] == SetClause(q.columns[k], k + 1))
      && (forall k :: 0 <= k < |q.clauses| ==> q.params[k] == Included(cs)[k].value.value)
      && q.idPlaceholder == |q.params|
      && q.params[q.idPlaceholder - 1] == Int(id)
  {
    var clauses, values, paramCount := BuildSetClauses(cs);
    if |clauses| == 0 {
      plan := ReturnCurrent;
    } else {
      values := values + [Int(id)];
      IncludedKeepsOrder(cs);
      plan := RunUpdate(UpdateQuery(table, Columns(Included(cs)), clauses, values, paramCount));
    }
  }

  /** What an `update*` method resolves to: the current row (`getX(id)`) when nothing was
      set; otherwise the first returned row, or `undefined` when the update matched no row
      or the query failed (`returned == None`). */
  function UpdateResult<R>(plan: UpdatePlan, current: Option<R>, returned: Option<seq<R>>): (r: Option<R>)
    ensures plan.ReturnCurrent? ==> r == current
    ensures plan.RunUpdate? ==> (r.None? <==> returned.None? || |returned.value| == 0)
    ensures plan.RunUpdate? && r.Some? ==> r.value == returned.value[0]
  {
    match plan
    case ReturnCurrent => current
    case RunUpdate(_) =>
      if returned.Some? && |returned.value| > 0 then Some(returned.value[0]) else None
  }

  /** `delete*`: `rowCount > 0`; a failed query (`rowCount == None`) is caught and reported
      as `false`. */
  function DeleteSucceeded(rowCount: Option<int>): (ok: bool)
    ensures ok ==> rowCount.Some? && rowCount.value >= 1
    ensures rowCount.Some? && rowCount.value >= 1 ==> ok
  {
    match rowCount
    case Some(n) => n > 0
    case None => false
  }

  // Per-table field lists ------------------------------------------------------

  datatype UserPatch = UserPatch(
    username: Option<string>,
    email: Option<string>,
    password: Option<string>,
    role: Option<string>,
    fullName: Option<SqlValue>,
    profileImage: Option<SqlValue>)

  const UserColumns := ["username", "email", "password", "role", "full_name", "profile_image"]

  /** `updateUser`: a non-empty password is replaced by its hash before the builder runs,
      so the password entry, when written, always carries the hash. */
  function UserCandidates(p: UserPatch, hash: string -> string): (cs: seq<Candidate>)
    ensures Columns(cs) == UserColumns
    ensures cs[2].value.Some? ==> TruthyText(p.password) && cs[2].value.value == Text(hash(p.password.value))
    ensures TruthyText(p.password) && hash(p.password.value) != "" ==> cs[2].value.Some?
    ensures cs[0].value.Some? <==> TruthyText(p.username)
    ensures cs[1].value.Some? <==> TruthyText(p.email)
    ensures cs[3].value.Some? <==> TruthyText(p.role)
    ensures cs[0].value.Some? ==> cs[0].value.value == Text(p.username.value)
    ensures cs[1].value.Some? ==> cs[1].value.value == Text(p.email.value)
    ensures cs[3].value.Some? ==> cs[3].value.value == Text(p.role.value)
    ensures cs[4].value == p.fullName && cs[5].value == p.profileImage
  {
    var password := if TruthyText(p.password) then Some(hash(p.password.value)) else p.password;
    [ IfTruthy("username", p.username),
      IfTruthy("email", p.email),
      IfTruthy("password", password),
      IfTruthy("role", p.role),
      IfDefined("full_name", p.fullName),
      IfDefined("profile_image", p.profileImage) ]
  }

  datatype VehiclePatch = VehiclePatch(
    vehicleNumber: Option<string>,
    vehicleType: Option<string>,
    capacity: Option<SqlValue>,
    status: Option<string>,
    fuelStatus: Option<SqlValue>,
    lastMaintenance: Option<SqlValue>,
    nextMaintenance: Option<SqlValue>)

  const VehicleColumns := ["vehicle_number", "vehicle_type", "capacity", "status", "fuel_status", "last_maintenance", "next_maintenance"]

  function VehicleCandidates(p: VehiclePatch): (cs: seq<Candidate>)
    ensures Columns(cs) == VehicleColumns
    ensures cs[0].value.Some? <==> TruthyText(p.vehicleNumber)
    ensures cs[3].value.Some? <==> TruthyText(p.status)
    ensures cs[2].value == p.capacity && cs[4].value == p.fuelStatus
  {
    [ IfTruthy("vehicle_number", p.vehicleNumber),
      IfTruthy("vehicle_type", p.vehicleType),
      IfDefined("capacity", p.capacity),
      IfTruthy("status", p.status),
      IfDefined("fuel_status", p.fuelStatus),
      IfDefined("last_maintenance", p.lastMaintenance),
      IfDefined("next_maintenance", p.nextMaintenance) ]
  }

  datatype RoutePatch = RoutePatch(
    name: Option<string>,
    status: Option<string>,
    description: Option<SqlValue>,
    startLocation: Option<string>,
    endLocation: Option<string>,
    waypoints: Option<SqlValue>,
    frequency: Option<SqlValue>,
    createdBy: Option<SqlValue>)

  const RouteColumns := ["name", "status", "description", "start_location", "end_location", "waypoints", "frequency", "created_by"]

  function RouteCandidates(p: RoutePatch): (cs: seq<Candidate>)
    ensures Columns(cs) == RouteColumns
    ensures cs[0].value.Some? <==> TruthyText(p.name)
    ensures cs[2].value == p.description
  {
    [ IfTruthy("name", p.name),
      IfTruthy("status", p.status),
      IfDefined("description", p.description),
      IfTruthy("start_location", p.startLocation),
      IfTruthy("end_location", p.endLocation),
      IfDefined("waypoints", p.waypoints),
      IfDefined("frequency", p.frequency),
      IfDefined("created_by", p.createdBy) ]
  }

  datatype RouteStopPatch = RouteStopPatch(
    name: Option<string>,
    routeId: Option<SqlValue>,
    location: Option<string>,
    arrivalTime: Option<SqlValue>,
    departureTime: Option<SqlValue>,
    order: Option<SqlValue>)

  const RouteStopColumns := ["name", "route_id", "location", "arrival_time", "departure_time", "\"order\""]

  function RouteStopCandidates(p: RouteStopPatch): (cs: seq<Candidate>)
    ensures Columns(cs) == RouteStopColumns
    ensures cs[2].value.Some? <==> TruthyText(p.location)
    ensures cs[5].value == p.order
  {
    [ IfTruthy("name", p.name),
      IfDefined("route_id", p.routeId),
      IfTruthy("location", p.location),
      IfDefined("arrival_time", p.arrivalTime),
      IfDefined("departure_time", p.departureTime),
      IfDefined("\"order\"", p.order) ]
  }

  datatype AssignmentPatch = AssignmentPatch(
    routeId: Option<SqlValue>,
    driverId: Option<SqlValue>,
    vehicleId: Option<SqlValue>,
    startTime: Option<SqlValue>,
    endTime: Option<SqlValue>,
    status: Option<SqlValue>)

  const AssignmentColumns := ["route_id", "driver_id", "vehicle_id", "start_time", "end_time", "status"]

  /** Every assignment field is written whenever it is present. */
  function AssignmentCandidates(p: AssignmentPatch): (cs: seq<Candidate>)
    ensures Columns(cs) == AssignmentColumns
    ensures cs[1].value == p.driverId && cs[5].value == p.status
  {
    [ IfDefined("route_id", p.routeId),
      IfDefined("driver_id", p.driverId),
      IfDefined("vehicle_id", p.vehicleId),
      IfDefined("start_time", p.startTime),
      IfDefined("end_time", p.endTime),
      IfDefined("status", p.status) ]
  }

  datatype DriverRatingPatch = DriverRatingPatch(
    driverId: Option<SqlValue>,
    userId: Option<SqlValue>,
    rating: Option<SqlValue>,
    comment: Option<SqlValue>,
    assignmentId: Option<SqlValue>)

  const DriverRatingColumns := ["driver_id", "user_id", "rating", "comment", "assignment_id"]

  function DriverRatingCandidates(p: DriverRatingPatch): (cs: seq<Candidate>)
    ensures Columns(cs) == DriverRatingColumns
    ensures cs[2].value == p.rating && cs[3].value == p.comment
  {
    [ IfDefined("driver_id", p.driverId),
      IfDefined("user_id", p.userId),
      IfDefined("rating", p.rating),
      IfDefined("comment", p.comment),
      IfDefined("assignment_id", p.assignmentId) ]
  }

  /** The user update: the plan issues a query exactly when some field qualifies, and the
      value bound to the `password` column is the hash, never the submitted text. */
  method PlanUserUpdate(id: int, p: UserPatch, hash: string -> string) returns (plan: UpdatePlan)
    ensures plan.ReturnCurrent? <==>
      && !TruthyText(p.username) && !TruthyText(p.email) && !TruthyText(p.role)
      && (!TruthyText(p.password) || hash(p.password.value) == "")
      && p.fullName.None? && p.profileImage.None?
    ensures plan.RunUpdate? ==>
      && plan.query.table == "users"
      && |plan.query.columns| < |plan.query.params| == plan.query.idPlaceholder
      && plan.query.params[plan.query.idPlaceholder - 1] == Int(id)
      && forall k :: 0 <= k < |plan.query.columns| && plan.query.columns[k] == "password" ==>
           TruthyText(p.password) && plan.query.params[k] == Text(hash(p.password.value))
  {
    var cs := UserCandidates(p, hash);
    assert |cs| == 6;
    assert (forall i :: 0 <= i < |cs| ==> cs[i].value.None?) <==>
      cs[0].value.None? && cs[1].value.None? && cs[2].value.None? && cs[3].value.None? && cs[4].value.None? && cs[5].value.None?;
    plan := PlanUpdate("users", cs, id);
    if plan.RunUpdate? {
      forall k | 0 <= k < |plan.query.columns| && plan.query.columns[k] == "password"
        ensures TruthyText(p.password) && plan.query.params[k] == Text(hash(p.password.value))
      {
        PasswordEntryIsHashed(cs, p, hash, k);
      }
    }
  }

  lemma PasswordEntryIsHashed(cs: seq<Candidate>, p: UserPatch, hash: string -> string, k: int)
    requires cs == UserCandidates(p, hash)
    requires 0 <= k < |Included(cs)| && Included(cs)[k].column == "password"
    ensures TruthyText(p.password) && Included(cs)[k].value.value == Text(hash(p.password.value))
  {
    // The included entries are entries of `cs`, and only entry 2 is named "password".
    IncludedMember(cs, k);
    var i :| 0 <= i < |cs| && cs[i] == Included(cs)[k];
    assert Columns(cs)[i] == UserColumns[i];
  }

  lemma {:induction false} IncludedMember(cs: seq<Candidate>, k: int)
    requires 0 <= k < |Included(cs)|
    ensures exists i :: 0 <= i < |cs| && cs[i] == Included(cs)[k]
    decreases |cs|
  {
    if cs[0].value.Some? && k == 0 {
      assert cs[0] == Included(cs)[0];
    } else {
      var k' := if cs[0].value.Some? then k - 1 else k;
      assert Included(cs)[k] == Included(cs[1..])[k'];
      IncludedMember(cs[1..], k');
      var i :| 0 <= i < |cs[1..]| && cs[1..][i] == Included(cs[1..])[k'];
      assert cs[i + 1] == Included(cs)[k];
    }
  }

  /** The two guard kinds differ on the empty string: an empty route name is skipped while
      an empty description is written. */
  lemma EmptyTextSkippedOrWritten(p: RoutePatch)
    requires p.name == Some("") && p.description == Some(Text(""))
    ensures RouteCandidates(p)[0].value.None?
    ensures RouteCandidates(p)[2].value == Some(Text(""))
  {
  }

  // ---------------------------------------------------------------------------
  // Insert defaults

  datatype NewUser = NewUser(
    username: string,
    email: string,
    password: string,
    role: Option<string>,
    fullName: Option<string>,
    profileImage: Option<string>)

  /** `createUser`: the password is stored hashed, role defaults to `user`, and empty
      optional texts are stored as NULL. */
  function CreateUserRow(id: int, u: NewUser, hash: string -> string): (r: User)
    ensures r.password == hash(u.password)
    ensures r.role != "" && (TruthyText(u.role) ==> r.role == u.role.value)
    ensures !TruthyText(u.role) ==> r.role == USER
    ensures r.fullName.Some? <==> TruthyText(u.fullName)
    ensures TruthyText(u.fullName) ==> r.fullName == u.fullName
    ensures r.profileImage.Some? <==> TruthyText(u.profileImage)
    ensures TruthyText(u.profileImage) ==> r.profileImage == u.profileImage
    ensures r.username == u.username && r.email == u.email
  {
    User(id, u.username, u.email, hash(u.password), OrText(u.role, USER),
         if TruthyText(u.fullName) then u.fullName else None,
         if TruthyText(u.profileImage) then u.profileImage else None)
  }

  datatype NewVehicle = NewVehicle(
    vehicleNumber: string,
    vehicleType: string,
    capacity: int,
    status: Option<string>,
    fuelStatus: Option<int>,
    lastMaintenance: Option<string>,
    nextMaintenance: Option<string>)

  /** `createVehicle`: status defaults to `inactive` and a missing fuel level to 0. */
  function CreateVehicleRow(id: int, v: NewVehicle): (r: Vehicle)
    ensures r.status != "" && (TruthyText(v.status) ==> r.status == v.status.value)
    ensures !TruthyText(v.status) ==> r.status == "inactive"
    ensures r.fuelStatus == v.fuelStatus.GetOr(0)
    ensures r.lastMaintenance.Some? <==> TruthyText(v.lastMaintenance)
    ensures TruthyText(v.lastMaintenance) ==> r.lastMaintenance == v.lastMaintenance
    ensures r.nextMaintenance.Some? <==> TruthyText(v.nextMaintenance)
    ensures TruthyText(v.nextMaintenance) ==> r.nextMaintenance == v.nextMaintenance
    ensures r.vehicleNumber == v.vehicleNumber && r.vehicleType == v.vehicleType && r.capacity == v.capacity
  {
    Vehicle(id, v.vehicleNumber, v.vehicleType, v.capacity, OrText(v.status, "inactive"),
            if TruthyInt(v.fuelStatus) then v.fuelStatus.value else 0,
            if TruthyText(v.lastMaintenance) then v.lastMaintenance else None,
            if TruthyText(v.nextMaintenance) then v.nextMaintenance else None)
  }

  datatype NewRoute = NewRoute(
    name: string,
    description: Option<string>,
    startLocation: string,
    endLocation: string,
    waypoints: Option<seq<string>>,
    frequency: int,
    status: Option<string>,
    createdBy: Option<int>)

  /** `createRoute`: status defaults to `active` and missing waypoints to the empty list;
      an empty description and a zero creator are stored as NULL. */
  function CreateRouteRow(id: int, rt: NewRoute): (r: Route)
    ensures r.status != "" && (!TruthyText(rt.status) ==> r.status == "active")
    ensures TruthyText(rt.status) ==> r.status == rt.status.value
    ensures r.waypoints.Some? && (rt.waypoints.Some? ==> r.waypoints == rt.waypoints)
    ensures rt.waypoints.None? ==> r.waypoints == Some([])
    ensures r.description.Some? <==> TruthyText(rt.description)
    ensures TruthyText(rt.description) ==> r.description == rt.description
    ensures r.createdBy.Some? <==> TruthyInt(rt.createdBy)
    ensures TruthyInt(rt.createdBy) ==> r.createdBy == rt.createdBy
    ensures r.name == rt.name && r.frequency == rt.frequency
  {
    Route(id, rt.name,
          if TruthyText(rt.description) then rt.description else None,
          rt.startLocation, rt.endLocation,
          Some(rt.waypoints.GetOr([])),
          rt.frequency,
          OrText(rt.status, "active"),
          if TruthyInt(rt.createdBy) then rt.createdBy else None)
  }

  datatype NewRouteStop = NewRouteStop(
    name: string,
    routeId: int,
    location: string,
    arrivalTime: Option<string>,
    departureTime: Option<string>,
    order: int)

  function CreateRouteStopRow(id: int, s: NewRouteStop): (r: RouteStop)
    ensures r.arrivalTime.Some? <==> TruthyText(s.arrivalTime)
    ensures TruthyText(s.arrivalTime) ==> r.arrivalTime == s.arrivalTime
    ensures r.departureTime.Some? <==> TruthyText(s.departureTime)
    ensures TruthyText(s.departureTime) ==> r.departureTime == s.departureTime
    ensures r.name == s.name && r.location == s.location
    ensures r.routeId == s.routeId && r.order == s.order
  {
    RouteStop(id, s.routeId, s.name, s.location,
              if TruthyText(s.arrivalTime) then s.arrivalTime else None,
              if TruthyText(s.departureTime) then s.departureTime else None,
              s.order)
  }

  datatype NewAssignment = NewAssignment(
    routeId: int,
    driverId: int,
    vehicleId: int,
    startTime: string,
    endTime: Option<string>,
    status: Option<string>)

  /** `createAssignment`: status defaults to `pending`. */
  function CreateAssignmentRow(id: int, a: NewAssignment): (r: Assignment)
    ensures r.status != "" && (!TruthyText(a.status) ==> r.status == "pending")
    ensures TruthyText(a.status) ==> r.status == a.status.value
    ensures r.endTime.Some? <==> TruthyText(a.endTime)
    ensures TruthyText(a.endTime) ==> r.endTime == a.endTime
    ensures r.startTime == a.startTime
    ensures r.driverId == a.driverId && r.routeId == a.routeId && r.vehicleId == a.vehicleId
  {
    Assignment(id, a.driverId, a.vehicleId, a.routeId, a.startTime,
               if TruthyText(a.endTime) then a.endTime else None,
               OrText(a.status, "pending"))
  }

  datatype NewDriverRating = NewDriverRating(
    driverId: int,
    userId: int,
    rating: int,
    comment: Option<string>,
    assignmentId: Option<int>)

  function CreateDriverRatingRow(id: int, d: NewDriverRating): (r: DriverRating)
    ensures r.comment.Some? <==> TruthyText(d.comment)
    ensures TruthyText(d.comment) ==> r.comment == d.comment
    ensures r.assignmentId.Some? <==> TruthyInt(d.assignmentId)
    ensures TruthyInt(d.assignmentId) ==> r.assignmentId == d.assignmentId
    ensures r.driverId == d.driverId && r.userId == d.userId
    ensures r.rating == d.rating
  {
    DriverRating(id, d.driverId, d.userId, d.rating,
                 if TruthyText(d.comment) then d.comment else None,
                 if TruthyInt(d.assignmentId) then d.assignmentId else None)
  }

  // ---------------------------------------------------------------------------
  // Re-inserting a stored row: the defaults are already applied, so inserting a row's own
  // fields again stores the same row. Each falsy field of the input has become its default.

  function UserInput(r: User): NewUser {
    NewUser(r.username, r.email, r.password, Some(r.role), r.fullName, r.profileImage)
  }

  function VehicleInput(r: Vehicle): NewVehicle {
    NewVehicle(r.vehicleNumber, r.vehicleType, r.capacity, Some(r.status), Some(r.fuelStatus),
               r.lastMaintenance, r.nextMaintenance)
  }

  function RouteInput(r: Route): NewRoute {
    NewRoute(r.name, r.description, r.startLocation, r.endLocation, r.waypoints, r.frequency,
             Some(r.status), r.createdBy)
  }

  function RouteStopInput(r: RouteStop): NewRouteStop {
    NewRouteStop(r.name, r.routeId, r.location, r.arrivalTime, r.departureTime, r.order)
  }

  function AssignmentInput(r: Assignment): NewAssignment {
    NewAssignment(r.routeId, r.driverId, r.vehicleId, r.startTime, r.endTime, Some(r.status))
  }

  function DriverRatingInput(r: DriverRating): NewDriverRating {
    NewDriverRating(r.driverId, r.userId, r.rating, r.comment, r.assignmentId)
  }

  /** Only the password changes when a stored user is inserted again: it is hashed once more. */
  lemma ReinsertUser(id: int, u: NewUser, hash: string -> string)
    ensures var r := CreateUserRow(id, u, hash);
      CreateUserRow(id, UserInput(r), hash) == r.(password := hash(r.password))
  {
  }

  lemma ReinsertVehicle(id: int, v: NewVehicle)
    ensures var r := CreateVehicleRow(id, v); CreateVehicleRow(id, VehicleInput(r)) == r
  {
  }

  lemma ReinsertRoute(id: int, rt: NewRoute)
    ensures var r := CreateRouteRow(id, rt); CreateRouteRow(id, RouteInput(r)) == r
  {
  }

  lemma ReinsertRouteStop(id: int, st: NewRouteStop)
    ensures var r := CreateRouteStopRow(id, st); CreateRouteStopRow(id, RouteStopInput(r)) == r
  {
  }

  lemma ReinsertAssignment(id: int, a: NewAssignment)
    ensures var r := CreateAssignmentRow(id, a); CreateAssignmentRow(id, AssignmentInput(r)) == r
  {
  }

  lemma ReinsertDriverRating(id: int, d: NewDriverRating)
    ensures var r := CreateDriverRatingRow(id, d); CreateDriverRatingRow(id, DriverRatingInput(r)) == r
  {
  }

  // ---------------------------------------------------------------------------
  // Location updates on an abstract database

  /** The rows the real-time path reads and writes. Location ids are serial, starting at 1. */
  datatype Db = Db(assignments: map<int, Assignment>, locations: seq<LocationUpdate>)

  /** The fields handed to `createLocationUpdate`; `None` is an absent (or null) field. */
  datatype NewLocation = NewLocation(
    assignmentId: Option<int>,
    latitude: Option<real>,
    longitude: Option<real>,
    status: Option<string>,
    speed: Option<real>,
    heading: Option<real>)

  function GetAssignment(db: Db, id: Option<int>): (r: Option<Assignment>)
    ensures r.Some? <==> id.Some? && id.value in db.assignments
  {
    if id.Some? && id.value in db.assignments then Some(db.assignments[id.value]) else None
  }

  /** `createLocationUpdate`: the insert throws (`None`) when a NOT NULL column is missing or
      the assignment id has no row; otherwise exactly one row is appended, with status
      defaulting to `active` and a zero speed or heading stored as NULL. */
  function CreateLocationUpdate(db: Db, n: NewLocation): (r: Option<(Db, LocationUpdate)>)
    ensures r.Some? <==>
      n.assignmentId.Some? && n.assignmentId.value in db.assignments && n.latitude.Some? && n.longitude.Some?
    ensures r.Some? ==>
      var (db', row) := r.value;
      && db'.assignments == db.assignments
      && db'.locations == db.locations + [row]
      && row.assignmentId == n.assignmentId.value
      && row.latitude == n.latitude.value && row.longitude == n.longitude.value
      && row.status != ""
      && (TruthyText(n.status) ==> row.status == n.status.value)
      && (!TruthyText(n.status) ==> row.status == "active")
      && (row.speed.Some? <==> TruthyReal(n.speed))
      && (TruthyReal(n.speed) ==> row.speed == n.speed)
      && (row.heading.Some? <==> TruthyReal(n.heading))
      && (TruthyReal(n.heading) ==> row.heading == n.heading)
  {
    if n.assignmentId.Some? && n.assignmentId.value in db.assignments && n.latitude.Some? && n.longitude.Some? then
      var row := LocationUpdate(|db.locations| + 1, n.assignmentId.value, n.latitude.value, n.longitude.value,
                                OrText(n.status, "active"), OrMissing(n.speed), OrMissing(n.heading));
      Some((Db(db.assignments, db.locations + [row]), row))
    else None
  }
}

=== FILE: tour_card.dfy ===
/** The tour card of client/src/components/ui/tour.tsx: step navigation, the labels the
    card shows and where the card is placed. Highlighting, pixel styles and resize
    handling are not modelled. A step event also reports whether it called `onComplete`. */
module TourCard {
  import opened Common

  datatype Placement = Left | Right | Top | Bottom

  datatype TourStep = TourStep(target: string, title: string, position: Option<Placement>)

  datatype Event = Next | Previous | Skip

  /** The step index after an event, and whether `onComplete` was called. */
  datatype Moved = Moved(step: int, completed: bool)

  /** `handleNext`: the last step completes the tour without moving; any other step moves
      forward by one. */
  function HandleNext(current: int, count: int): (r: Moved)
    ensures r.completed <==> current == count - 1
    ensures r.completed ==> r.step == current
    ensures !r.completed ==> r.step == current + 1
  {
    if current == count - 1 then Moved(current, true) else Moved(current + 1, false)
  }

  /** `handlePrevious`: moves back one step, except on the first. */
  function HandlePrevious(current: int): (r: Moved)
    ensures !r.completed
    ensures current > 0 ==> r.step == current - 1
    ensures current <= 0 ==> r.step == current
  {
    if current > 0 then Moved(current - 1, false) else Moved(current, false)
  }

  /** `handleSkip`: completes the tour from wherever it is. */
  function HandleSkip(current: int): (r: Moved)
    ensures r.completed && r.step == current
  {
    Moved(current, true)
  }

  function Apply(current: int, count: int, e: Event): Moved {
    match e
    case Next => HandleNext(current, count)
    case Previous => HandlePrevious(current)
    case Skip => HandleSkip(current)
  }

  /** The step index after a sequence of clicks, starting from `current`. */
  function Run(current: int, count: int, events: seq<Event>): int
    decreases |events|
  {
    if |events| == 0 then current
    else Run(Apply(current, count, events[0]).step, count, events[1..])
  }

  /** With at least one step, no sequence of clicks leaves the range of step indices. */
  lemma {:induction false} RunStaysInRange(current: int, count: int, events: seq<Event>)
    requires 0 <= current < count
    ensures 0 <= Run(current, count, events) < count
    decreases |events|
  {
    if |events| > 0 {
      RunStaysInRange(Apply(current, count, events[0]).step, count, events[1..]);
    }
  }

  /** The tour opens on the first step, so every reachable step index is valid. */
  lemma ReachableStepsValid(count: int, events: seq<Event>)
    requires count >= 1
    ensures 0 <= Run(0, count, events) < count
  {
    RunStaysInRange(0, count, events);
  }

  /** Next followed by Previous returns to the same step, unless Next completed the tour. */
  lemma NextThenPrevious(current: int, count: int)
    requires 0 <= current < count - 1
    ensures HandlePrevious(HandleNext(current, count).step).step == current
  {
  }

  /** The primary button reads "Finish" exactly on the step where Next completes. */
  function PrimaryLabel(current: int, count: int): (caption: string)
    ensures caption == "Finish" <==> HandleNext(current, count).completed
    ensures caption != "Finish" ==> caption == "Next"
  {
    if current == count - 1 then "Finish" else "Next"
  }

  /** The back button is offered exactly when Previous would move. */
  function ShowsPrevious(current: int): (shown: bool)
    ensures shown <==> HandlePrevious(current).step != current
  {
    current > 0
  }

  /** `<current+1> of <count>`: the counter is one-based and names the total. */
  function Counter(current: int, count: int): (text: string)
    ensures |text| > |IntToString(current + 1)| + |IntToString(count)|
    ensures text[..|IntToString(current + 1)|] == IntToString(current + 1)
    ensures text[|text| - |IntToString(count)|..] == IntToString(count)
  {
    IntToString(current + 1) + " of " + IntToString(count)
  }

  /** On the last step the counter reads the same number twice, `<n> of <n>`, and reading
      its leading number back gives the step count. */
  lemma LastStepCounter(count: int)
    ensures Counter(count - 1, count) == IntToString(count) + " of " + IntToString(count)
    ensures ParseInt(Counter(count - 1, count)[..|IntToString(count)|]) == Some(count)
  {
    ParseIntOfIntToString(count);
  }

  // ---------------------------------------------------------------------------
  // Card placement

  /** `calculatePosition` as written: `pos` is the step's placement defaulted to
      `"bottom"` before the `if (pos)` test, so the test always passes and the geometry is
      never consulted. */
  function CardPlacementAsWritten(step: TourStep, rectTop: real, rectLeft: real,
                                  windowWidth: real, windowHeight: real): (p: Placement)
    ensures p == step.position.GetOr(Bottom)
  {
    var pos: Option<Placement> := Some(step.position.GetOr(Bottom));
    if pos.Some? then pos.value else AutomaticPlacement(rectTop, rectLeft, windowWidth, windowHeight)
  }

  /** The automatic placement the function goes on to compute: above a target in the
      lower half, below otherwise; then to the right of a target in the left third and to
      the left of one in the right third. The last choice made wins. */
  function AutomaticPlacement(rectTop: real, rectLeft: real, windowWidth: real, windowHeight: real): (p: Placement)
    ensures rectLeft < windowWidth / 3.0 ==> p == Right
    ensures rectLeft > windowWidth * 2.0 / 3.0 && rectLeft >= windowWidth / 3.0 ==> p == Left
    ensures windowWidth / 3.0 <= rectLeft <= windowWidth * 2.0 / 3.0 ==>
      (p == Top <==> rectTop > windowHeight / 2.0) && (p == Bottom <==> rectTop <= windowHeight / 2.0)
  {
    var vertical := if rectTop > windowHeight / 2.0 then Top else Bottom;
    if rectLeft < windowWidth / 3.0 then Right
    else if rectLeft > windowWidth * 2.0 / 3.0 then Left
    else vertical
  }

  /** The placement evidently intended by the comments: a step's own placement overrides,
      and only a step without one is placed automatically. */
  function CardPlacement(step: TourStep, rectTop: real, rectLeft: real,
                         windowWidth: real, windowHeight: real): (p: Placement)
    ensures step.position.Some? ==> p == step.position.value
    ensures step.position.None? ==> p == AutomaticPlacement(rectTop, rectLeft, windowWidth, windowHeight)
  {
    match step.position
    case Some(pos) => pos
    case None => AutomaticPlacement(rectTop, rectLeft, windowWidth, windowHeight)
  }

  /** The two agree whenever the step names its placement; for a step without one, a
      target near the left edge is placed to its right by the intended rule but below it
      as written. */
  lemma PlacementDiscrepancy(step: TourStep)
    ensures step.position.Some? ==> CardPlacementAsWritten(step, 0.0, 0.0, 1200.0, 800.0) == CardPlacement(step, 0.0, 0.0, 1200.0, 800.0)
    ensures step.position.None? ==>
      CardPlacementAsWritten(step, 0.0, 0.0, 1200.0, 800.0) == Bottom &&
      CardPlacement(step, 0.0, 0.0, 1200.0, 800.0) == Right
  {
  }
}

=== FILE: tour_progress.dfy ===
/** The onboarding-tour provider of client/src/hooks/use-tour.tsx: which tour a role gets,
    the per-tour `seen` flags, whether the tour is showing, and the two actions that
    complete and restart it. Persistence in the browser's local storage is not modelled. */
module TourProgress {
  import opened Common
  import opened Schema

  datatype TourKey = AdminTour | UserTour | DriverTour

  /** The `seen` record, one flag per tour. */
  datatype Seen = Seen(admin: bool, user: bool, driver: bool) {
    function Get(k: TourKey): bool {
      match k
      case AdminTour => admin
      case UserTour => user
      case DriverTour => driver
    }

    /** `{...seen, [k]: v}` */
    function With(k: TourKey, v: bool): (r: Seen)
      ensures r.Get(k) == v
      ensures forall j :: j != k ==> r.Get(j) == Get(j)
    {
      match k
      case AdminTour => this.(admin := v)
      case UserTour => this.(user := v)
      case DriverTour => this.(driver := v)
    }
  }

  datatype Provider = Provider(seen: Seen, showTour: bool)

  /** Nothing has been seen and nothing is showing before the first effect runs. */
  function InitialProvider(): (p: Provider)
    ensures forall k :: !p.seen.Get(k)
    ensures !p.showTour
  {
    Provider(Seen(false, false, false), false)
  }

  /** `tourType`: the tour named after the role, for the three known roles only. */
  function TourTypeOf(role: Option<string>): (t: Option<TourKey>)
    ensures t == Some(AdminTour) <==> role == Some(ADMIN)
    ensures t == Some(UserTour) <==> role == Some(USER)
    ensures t == Some(DriverTour) <==> role == Some(DRIVER)
  {
    if role == Some(ADMIN) then Some(AdminTour)
    else if role == Some(USER) then Some(UserTour)
    else if role == Some(DRIVER) then Some(DriverTour)
    else None
  }

  /** The show-tour effect: the tour shows exactly when a user is signed in, their role has
      a tour, and that tour has not been seen. */
  function ShowEffect(p: Provider, role: Option<string>): (r: Provider)
    ensures r.seen == p.seen
    ensures r.showTour <==> role.Some? && TourTypeOf(role).Some? && !p.seen.Get(TourTypeOf(role).value)
  {
    var t := TourTypeOf(role);
    Provider(p.seen, role.Some? && t.Some? && !p.seen.Get(t.value))
  }

  /** `markTourAsCompleted`: the role's tour is marked seen and hidden; other tours keep
      their flags; without a tour type nothing happens. */
  function MarkTourAsCompleted(p: Provider, role: Option<string>): (r: Provider)
    ensures TourTypeOf(role).None? ==> r == p
    ensures TourTypeOf(role).Some? ==> r.seen.Get(TourTypeOf(role).value) && !r.showTour
    ensures forall k :: Some(k) != TourTypeOf(role) ==> r.seen.Get(k) == p.seen.Get(k)
  {
    match TourTypeOf(role)
    case None => p
    case Some(t) => Provider(p.seen.With(t, true), false)
  }

  /** `resetTour`: the role's tour is marked unseen and shown; other tours keep their
      flags; without a tour type nothing happens. */
  function ResetTour(p: Provider, role: Option<string>): (r: Provider)
    ensures TourTypeOf(role).None? ==> r == p
    ensures TourTypeOf(role).Some? ==> !r.seen.Get(TourTypeOf(role).value) && r.showTour
    ensures forall k :: Some(k) != TourTypeOf(role) ==> r.seen.Get(k) == p.seen.Get(k)
  {
    match TourTypeOf(role)
    case None => p
    case Some(t) => Provider(p.seen.With(t, false), true)
  }

  /** Completing twice is completing once. */
  lemma MarkCompletedIdempotent(p: Provider, role: Option<string>)
    ensures MarkTourAsCompleted(MarkTourAsCompleted(p, role), role) == MarkTourAsCompleted(p, role)
  {
  }

  /** The actions agree with the effect that re-runs after them: once completed, the effect
      keeps the tour hidden; once reset, it keeps it showing. */
  lemma ActionsAgreeWithEffect(p: Provider, role: Option<string>)
    requires TourTypeOf(role).Some?
    ensures ShowEffect(MarkTourAsCompleted(p, role), role).showTour == MarkTourAsCompleted(p, role).showTour
    ensures ShowEffect(ResetTour(p, role), role).showTour == ResetTour(p, role).showTour
  {
  }

  /** Completing after a reset hides the tour again and restores the flags as they were
      after the earlier completion. */
  lemma ResetThenComplete(p: Provider, role: Option<string>)
    ensures MarkTourAsCompleted(ResetTour(MarkTourAsCompleted(p, role), role), role) == MarkTourAsCompleted(p, role)
  {
  }

  /** A first sign-in with a known role shows that role's tour. */
  lemma FirstSignInShowsTour(role: string)
    requires role in {ADMIN, USER, DRIVER}
    ensures ShowEffect(InitialProvider(), Some(role)).showTour
  {
  }
}

=== FILE: user_admin.dfy ===
/** The administrator's user list of client/src/components/admin/user-management.tsx: the
    search over the list, the form's validation schema, what submitting the form sends,
    and how a user is loaded for editing. The e-mail format check is a parameter
    (`isEmail`); lengths are counted in characters. */
module UserAdmin {
  import opened Common
  import opened Schema

  /** A listed user as the page receives it. */
  datatype ListedUser = ListedUser(id: int, username: string, email: string, fullName: Option<string>, role: string)

  // ---------------------------------------------------------------------------
  // Search

  /** A user matches when the lower-cased query occurs in the lower-cased username, e-mail,
      or non-empty full name. */
  predicate MatchesSearch(u: ListedUser, query: string) {
    var q := ToLower(query);
    Contains(ToLower(u.username), q) || Contains(ToLower(u.email), q) ||
    (TruthyText(u.fullName) && Contains(ToLower(u.fullName.value), q))
  }

  /** `filteredUsers`: the matching users in list order; nothing while the list loads. */
  function FilteredUsers(users: Option<seq<ListedUser>>, query: string): (r: Option<seq<ListedUser>>)
    ensures r.None? <==> users.None?
    ensures r.Some? ==> SubsequenceOf(r.value, users.value)
    ensures r.Some? ==> forall u :: u in r.value <==> u in users.value && MatchesSearch(u, query)
  {
    match users
    case None => None
    case Some(us) => Some(Filter(us, (u: ListedUser) => MatchesSearch(u, query)))
  }

  /** An empty search keeps every user. */
  lemma EmptySearchKeepsAll(users: seq<ListedUser>)
    ensures FilteredUsers(Some(users), "") == Some(users)
  {
    forall i | 0 <= i < |users|
      ensures MatchesSearch(users[i], "")
    {
      ContainsEmpty(ToLower(users[i].username));
    }
    FilterKeepsAll(users, (u: ListedUser) => MatchesSearch(u, ""));
  }

  /** A user whose username contains the query, in any letter case, is always listed. */
  lemma UsernameHitIsListed(users: seq<ListedUser>, query: string, i: int)
    requires 0 <= i < |users|
    requires Contains(ToLower(users[i].username), ToLower(query))
    ensures users[i] in FilteredUsers(Some(users), query).value
  {
  }

  // ---------------------------------------------------------------------------
  // Form schema

  /** The form's values; an optional field the form never set is `None`. */
  datatype Values = Values(username: string, email: string, password: Option<string>, fullName: Option<string>)

  datatype Field = Username | Email | Password

  const USERNAME_SHORT := "Username must be at least 3 characters"
  const EMAIL_INVALID := "Please enter a valid email address"
  const PASSWORD_SHORT := "Password must be at least 6 characters"

  /** The schema's findings, in field order: a username of fewer than three characters, an
      e-mail that is not well formed, and a password that is present but shorter than six
      characters. An empty password is present: only an absent one is optional. */
  function SchemaErrors(v: Values, isEmail: string -> bool): (errs: seq<(Field, string)>)
    ensures |errs| <= 3
    ensures (Username, USERNAME_SHORT) in errs <==> |v.username| < 3
    ensures (Email, EMAIL_INVALID) in errs <==> !isEmail(v.email)
    ensures (Password, PASSWORD_SHORT) in errs <==> v.password.Some? && |v.password.value| < 6
    ensures errs == [] <==> |v.username| >= 3 && isEmail(v.email) && (v.password.None? || |v.password.value| >= 6)
  {
    (if |v.username| < 3 then [(Username, USERNAME_SHORT)] else []) +
    (if !isEmail(v.email) then [(Email, EMAIL_INVALID)] else []) +
    (if v.password.Some? && |v.password.value| < 6 then [(Password, PASSWORD_SHORT)] else [])
  }

  /** The registration body: the form's values with the role forced to the plain user role. */
  datatype RegisterBody = RegisterBody(username: string, email: string, password: Option<string>,
                                       fullName: Option<string>, role: string)

  datatype Outcome = Invalid(errors: seq<(Field, string)>) | Ignored | Register(body: RegisterBody)

  /** Submitting: the schema runs first; valid values create a user when nothing is being
      edited, and the editing branch sends nothing. */
  function Submit(editing: Option<int>, v: Values, isEmail: string -> bool): (r: Outcome)
    ensures r.Invalid? <==> SchemaErrors(v, isEmail) != []
    ensures r.Ignored? <==> SchemaErrors(v, isEmail) == [] && editing.Some?
    ensures r.Register? <==> SchemaErrors(v, isEmail) == [] && editing.None?
    ensures r.Register? ==> r.body.role == USER
    ensures r.Register? ==> r.body.username == v.username && r.body.email == v.email &&
                            r.body.password == v.password && r.body.fullName == v.fullName
  {
    var errs := SchemaErrors(v, isEmail);
    if errs != [] then Invalid(errs)
    else if editing.Some? then Ignored
    else Register(RegisterBody(v.username, v.email, v.password, v.fullName, USER))
  }

  /** The form's defaults, also what `form.reset()` restores. */
  function DefaultValues(): (v: Values)
    ensures v.username == "" && v.email == "" && v.password == Some("") && v.fullName == Some("")
  {
    Values("", "", Some(""), Some(""))
  }

  /** The edit button: the user's fields, a blank password and the full name defaulted to
      empty text. */
  function LoadForEdit(u: ListedUser): (v: Values)
    ensures v.username == u.username && v.email == u.email && v.password == Some("")
    ensures v.fullName == Some(OrText(u.fullName, ""))
  {
    Values(u.username, u.email, Some(""), Some(OrText(u.fullName, "")))
  }

  /** Whatever the administrator types, an account made here is a plain user account, and
      an edit never reaches the server. */
  lemma CreatedAccountsArePlainUsers(editing: Option<int>, v: Values, isEmail: string -> bool)
    ensures Submit(editing, v, isEmail).Register? ==> Submit(editing, v, isEmail).body.role == USER
    ensures editing.Some? ==> !Submit(editing, v, isEmail).Register?
  {
  }

  /** The blank password the form starts with, or loads for an edit, fails the schema, so
      neither the untouched create form nor an untouched edit submits. */
  lemma BlankPasswordBlocksSubmit(u: ListedUser, editing: Option<int>, isEmail: string -> bool)
    ensures Submit(editing, LoadForEdit(u), isEmail).Invalid?
    ensures Submit(editing, DefaultValues(), isEmail).Invalid?
    ensures (Password, PASSWORD_SHORT) in SchemaErrors(LoadForEdit(u), isEmail)
  {
  }

  // ---------------------------------------------------------------------------
  // The page's editing state

  /** The page's editing state: which user the form is editing, if any. Nothing ever
      clears it once set. */
  datatype Page = Page(editing: Option<int>, dialogOpen: bool, values: Values)

  datatype Action = EditClicked(user: ListedUser) | Submitted(values: Values)

  /** One action: the edit button loads a user, remembers its id and sends nothing; a
      submit sends what `Submit` decides and keeps the editing state. */
  function Act(p: Page, a: Action, isEmail: string -> bool): (r: (Page, Outcome))
    ensures a.EditClicked? ==> r.0 == Page(Some(a.user.id), true, LoadForEdit(a.user)) && r.1.Ignored?
    ensures a.Submitted? ==> r.0.editing == p.editing && r.1 == Submit(p.editing, a.values, isEmail)
  {
    match a
    case EditClicked(u) => (Page(Some(u.id), true, LoadForEdit(u)), Ignored)
    case Submitted(v) => (p.(values := v), Submit(p.editing, v, isEmail))
  }

  /** The outcomes of a run of actions, in order. */
  function Run(p: Page, actions: seq<Action>, isEmail: string -> bool): seq<Outcome>
    decreases |actions|
  {
    if |actions| == 0 then []
    else
      var (p', o) := Act(p, actions[0], isEmail);
      [o] + Run(p', actions[1..], isEmail)
  }

  /** Once the edit button has been used, the page never creates a user again: the editing
      state is never cleared, so every later valid submit takes the empty editing branch. */
  lemma {:induction false} NoCreateAfterEdit(p: Page, actions: seq<Action>, isEmail: string -> bool)
    requires p.editing.Some?
    ensures forall k :: 0 <= k < |Run(p, actions, isEmail)| ==> !Run(p, actions, isEmail)[k].Register?
    decreases |actions|
  {
    if |actions| > 0 {
      var (p', o) := Act(p, actions[0], isEmail);
      NoCreateAfterEdit(p', actions[1..], isEmail);
    }
  }
}

=== FILE: vehicle_form.dfy ===
/** The vehicle form of client/src/components/admin/vehicle-management.tsx: validation,
    the request it sends, and how the form is filled for editing and cleared. The HTTP
    calls, toasts and the delete confirmation dialog are not modelled. */
module VehicleForm {
  import opened Common
  import opened Schema

  /** The form's fields, all text as typed. */
  datatype Form = Form(vehicleNumber: string, vehicleType: string, capacity: string, status: string)

  const NUMBER_REQUIRED := "El número de vehículo es requerido"
  const TYPE_REQUIRED := "El tipo de vehículo es requerido"
  const CAPACITY_POSITIVE := "La capacidad debe ser un número positivo"

  /** `resetForm` and the initial state: empty text and status `active`. */
  function EmptyForm(): (f: Form)
    ensures f.vehicleNumber == "" && f.vehicleType == "" && f.capacity == "" && f.status == "active"
  {
    Form("", "", "", "active")
  }

  /** `capacity` is rejected when it is empty or reads as a number that is not positive.
      Text that does not start with a number (`NaN`) is not rejected: `NaN <= 0` is false. */
  predicate CapacityRejected(capacity: string) {
    capacity == "" || (ParseInt(capacity).Some? && ParseInt(capacity).value <= 0)
  }

  /** `validateForm`: the first failing check names the error; `None` when all pass. */
  function ValidateForm(f: Form): (err: Option<string>)
    ensures err == Some(NUMBER_REQUIRED) <==> Blank(f.vehicleNumber)
    ensures err == Some(TYPE_REQUIRED) <==> !Blank(f.vehicleNumber) && Blank(f.vehicleType)
    ensures err == Some(CAPACITY_POSITIVE) <==>
      !Blank(f.vehicleNumber) && !Blank(f.vehicleType) && CapacityRejected(f.capacity)
    ensures err.None? <==> !Blank(f.vehicleNumber) && !Blank(f.vehicleType) && !CapacityRejected(f.capacity)
  {
    TrimEmptyIffBlank(f.vehicleNumber);
    TrimEmptyIffBlank(f.vehicleType);
    if Trim(f.vehicleNumber) == "" then Some(NUMBER_REQUIRED)
    else if Trim(f.vehicleType) == "" then Some(TYPE_REQUIRED)
    else if f.capacity == "" || (ParseInt(f.capacity).Some? && ParseInt(f.capacity).value <= 0) then Some(CAPACITY_POSITIVE)
    else None
  }

  /** The JSON body sent: the two texts and the status as typed, and the capacity read by
      `parseInt`; `None` is `NaN`, which `JSON.stringify` writes as `null`. */
  datatype Payload = Payload(vehicleNumber: string, vehicleType: string, capacity: Option<int>, status: string)

  /** A request the form sends. */
  datatype Request = Rejected(message: string) | Put(id: int, body: Payload) | Post(body: Payload)

  /** `handleSubmit`: a failing check stops with its message; otherwise the payload is sent
      with PUT to the edited vehicle's address, or with POST when nothing is being edited. */
  function Submit(f: Form, editing: Option<Vehicle>): (r: Request)
    ensures r.Rejected? <==> ValidateForm(f).Some?
    ensures r.Rejected? ==> r.message == ValidateForm(f).value
    ensures r.Put? <==> ValidateForm(f).None? && editing.Some?
    ensures r.Put? ==> r.id == editing.value.id
    ensures !r.Rejected? ==> r.body.vehicleNumber == f.vehicleNumber && r.body.vehicleType == f.vehicleType
    ensures !r.Rejected? ==> r.body.status == f.status && r.body.capacity == ParseInt(f.capacity)
    ensures !r.Rejected? ==> r.body.capacity.None? || r.body.capacity.value > 0
  {
    match ValidateForm(f)
    case Some(msg) => Rejected(msg)
    case None =>
      var body := Payload(f.vehicleNumber, f.vehicleType, ParseInt(f.capacity), f.status);
      if editing.Some? then Put(editing.value.id, body) else Post(body)
  }

  /** The edit effect: the vehicle's fields, with the capacity written as text. */
  function FormOf(v: Vehicle): (f: Form)
    ensures f.vehicleNumber == v.vehicleNumber && f.vehicleType == v.vehicleType && f.status == v.status
    ensures ParseInt(f.capacity) == Some(v.capacity)
  {
    ParseIntOfIntToString(v.capacity);
    Form(v.vehicleNumber, v.vehicleType, IntToString(v.capacity), v.status)
  }

  /** Saving an edited vehicle without touching the form sends its own fields back to its
      own address, provided they pass validation. */
  lemma UntouchedEditRoundTrip(v: Vehicle)
    requires !Blank(v.vehicleNumber) && !Blank(v.vehicleType) && v.capacity > 0
    ensures Submit(FormOf(v), Some(v)) ==
      Put(v.id, Payload(v.vehicleNumber, v.vehicleType, Some(v.capacity), v.status))
  {
  }

  /** A stored capacity that is not positive makes the untouched edit fail on capacity. */
  lemma NonPositiveCapacityRejected(v: Vehicle)
    requires !Blank(v.vehicleNumber) && !Blank(v.vehicleType) && v.capacity <= 0
    ensures Submit(FormOf(v), Some(v)) == Rejected(CAPACITY_POSITIVE)
  {
  }

  /** A cleared form fails on the vehicle number first. */
  lemma EmptyFormRejected(editing: Option<Vehicle>)
    ensures Submit(EmptyForm(), editing) == Rejected(NUMBER_REQUIRED)
  {
  }

  /** A capacity that is not a number passes validation and is sent as `null`. */
  lemma TextCapacityAccepted(number: string, kind: string, capacity: string, editing: Option<Vehicle>)
    requires !Blank(number) && !Blank(kind)
    requires |capacity| > 0 && 'a' <= capacity[0] <= 'z'
    ensures !Submit(Form(number, kind, capacity, "active"), editing).Rejected?
    ensures Submit(Form(number, kind, capacity, "active"), editing).body.capacity.None?
  {
    NonDigitIsNaN(capacity);
  }
}
